=== FILE: README.md ===
# De Bruijn lambda interpreter in Dafny

A model of the core of a small Java interpreter for the untyped lambda
calculus (package `cn.seecoder`, under `src/main/java`). Source text such as
`(\n.\f.\x.f (n f x)) (\f.\x.x)` goes through these pieces:

- **Lexer** (`lexer.dfy`, module `Lexer`). It turns the text into the tokens
  `LPAREN`, `RPAREN`, `LAMBDA`, `DOT`, `LCID` (identifiers `[a-z][a-zA-Z]*`)
  and `EOF`.
  - It works lazily, as the Java class does: a lexer state holds the source,
    a position and the current token.
  - The parser drives it through `next`, `match` and `skip`.
- **Parser** (`parser.dfy`, module `Parser`). A recursive descent parser for
  `term ::= \x.term | application`, `application ::= atom atom*` and
  `atom ::= (term) | x`.
  - Applications fold to the left.
  - Every identifier is resolved to its de Bruijn index: the number of
    binders between it and its own binder, innermost = 0.
- **AST and printer** (`ast.dfy`, `printer.dfy`). The three node kinds are
  Identifier, Abstraction and Application.
  - The canonical printed form shows an identifier as its index, an
    abstraction as `\.` followed by its body, and an application as
    `(f a)`.
  - A reader for that form proves it unambiguous.
- **Normaliser** (`interpreter.dfy`, module `Interpreter`). It has three
  parts:
  - shifting of free indices;
  - substitution;
  - the beta-reduction of `(\.body) value`, which is
    `shift(-1, subst(body, shift(1, value, 0), 0), 0)`.

  These feed a reduction loop that reduces to full normal form.
- **Round trip** (`roundtrip.dfy`). A named, fully parenthesised printer
  `Show`, with the proof that the parser reads back every term it can
  produce.
- **Goldens** (`goldens.dfy`). The small worked examples from the test
  suite, proved by computation:
  - `(\f.\x.x)` lexed and parsed;
  - SUCC ZERO, AND TRUE FALSE and ISZERO ZERO printed and normalised;
  - a free identifier rejected.

`wrappers.dfy` holds the `Result` and `Option` types. Normalisation takes a
fuel bound: the untyped calculus has terms with no normal form.

Where the Java code and its own test goldens disagree, the model follows the
goldens and the doc-comments. These cases are:

- the unfinished `subst`;
- evaluation under binders;
- index resolution;
- parentheses around applications;
- white space.

Each is listed under "Left out" with what the Java does instead.

## Model

| member | source | states |
|---|---|---|
| Ast.SetLhs | src/main/java/cn/seecoder/Application.java:20-22 | setting the left side gives an application with the new left side and the old right side |
| Ast.SetRhs | src/main/java/cn/seecoder/Application.java:28-30 | setting the right side gives an application with the old left side and the new right side |
| Ast.AccessorLaws | src/main/java/cn/seecoder/Application.java:16-30 | a getter returns the last value set; setting one side never disturbs the other; the two setters commute; setting a side to its current value changes nothing |
| Lexer.TypeOf | src/main/java/cn/seecoder/Lexer.java:18-26 | `.`, `(`, `)` and `\` map to DOT, LPAREN, RPAREN and LAMBDA, each spelt by its own character; exactly the lower-case letters start an identifier; no character maps to EOF |
| Lexer.TypeOfSpelling | src/main/java/cn/seecoder/Lexer.java:20-24 | each punctuation type is recognised from its own spelling, so the table is one-to-one |
| Lexer.IdentifierEnd | src/main/java/cn/seecoder/Lexer.java:68-78 | an identifier token is the longest run matching `[a-z][a-zA-Z]*`: what it covers is an identifier and what follows is the end of input or a non-letter |
| Lexer.ScanIdentifier | src/main/java/cn/seecoder/Lexer.java:68-78 | an identifier followed by a non-letter or by the end of input is scanned as exactly that identifier, and the position moves just past it |
| Lexer.ScanPunctuation | src/main/java/cn/seecoder/Lexer.java:65-67 | a punctuation character is scanned as its own one-character token |
| Lexer.NextToken | src/main/java/cn/seecoder/Lexer.java:61-81 | the scanned token is the text at the first non-blank position and the position moves just past it; EOF comes exactly when only white space is left; an unknown character is an error that names the character and its offset |
| Lexer.ScanWhitespace | src/test/java/cn/seecoder/InterpreterTest.java:152-180 | white space before a token produces no token of its own |
| Lexer.ScanAtEnd | src/main/java/cn/seecoder/Lexer.java:62 | at the end of input the token is EOF and the position does not move, so requesting again stays at EOF |
| Lexer.Start | src/main/java/cn/seecoder/Lexer.java:28-33 | a new lexer stands on the first token: the text at the first non-blank position, with the position just past it, or EOF exactly when the source is blank; it fails exactly when that first token cannot be scanned, at its offset |
| Lexer.Next | src/main/java/cn/seecoder/Lexer.java:84-87 | answers yes only for the current token's type; a yes carries that type's text, and a yes to EOF means the lexer is at the end of its input |
| Lexer.Advance | src/main/java/cn/seecoder/Lexer.java:61-81 | moving on keeps the source; it leaves an EOF lexer where it is and strictly lowers the count of tokens left otherwise |
| Lexer.Match | src/main/java/cn/seecoder/Lexer.java:90-95 | on a mismatch the lexer comes back unchanged with false; on a match it returns true and the lexer one `Advance` on, that is, on the next token; it fails exactly when the token matches and moving on fails |
| Lexer.Skip | src/main/java/cn/seecoder/Lexer.java:98-106 | always moves exactly one `Advance` on, to the next token, and returns whether the current token had the type asked for |
| Lexer.TokensFrom | src/test/java/cn/seecoder/InterpreterTest.java:124-134 | the token stream starts with the token scanned at the position, ends with exactly one EOF, and no earlier token is EOF |
| Lexer.TokensFromReads | src/test/java/cn/seecoder/InterpreterTest.java:124-134 | the token stream is what the cursor passes over: from the lexer at the position, advancing stands on each token before EOF in order and stops on the EOF lexer at the end of input |
| Lexer.TokenizeReads | src/test/java/cn/seecoder/InterpreterTest.java:124-134 | the lexer a new parser starts with reads the whole token stream up to its EOF, as the test prints it |
| Lexer.ReadsAppend | src/main/java/cn/seecoder/Lexer.java:61-81 | reading one stretch of tokens and then another reads their concatenation |
| Lexer.ReadsSplit | src/main/java/cn/seecoder/Lexer.java:61-81 | a stretch of tokens read in one go splits where its first part ends |
| Lexer.IdentifierEndAsWritten | src/main/java/cn/seecoder/Lexer.java:68-78 | the Java identifier loop as written: when it finishes, it stops strictly inside the input |
| Lexer.IdentifierEndAgrees | src/main/java/cn/seecoder/Lexer.java:68-78 | the loop as written fails exactly when the identifier runs to the end of input; otherwise it agrees with `IdentifierEnd` |
| Lexer.IdentifierAtEndOfInput | src/main/java/cn/seecoder/Lexer.java:69-73 | on input `x`, the intended scan ends the identifier at 1 and the loop as written runs off the end |
| Parser.IndexOf | src/main/java/cn/seecoder/Parser.java:79 | the index of a name is the position of its innermost binder, so an inner binder of the same name shadows outer ones; a missing name gives nothing |
| Parser.WellNamedScoped | src/main/java/cn/seecoder/Parser.java:30-43 | every index the parser assigns is below the number of binders around it: parsed terms are well scoped |
| Parser.ParseTerm | src/main/java/cn/seecoder/Parser.java:30-43 | a successful parse consumes at least one token, and each identifier in the result carries the index of its innermost binder; a term that starts with LAMBDA parses to an abstraction |
| Parser.ParseApplication | src/main/java/cn/seecoder/Parser.java:59-70 | an application needs at least one atom; if the lookahead cannot start an atom, the error names LPAREN and LCID as expected |
| Parser.ParseApplicationTail | src/main/java/cn/seecoder/Parser.java:63-69 | when the lookahead cannot start an atom, the application ends there with the lexer unmoved; further atoms keep the result well named |
| Parser.ParseAtom | src/main/java/cn/seecoder/Parser.java:72-85 | an atom yields nothing exactly when the lookahead is neither LPAREN nor LCID; an identifier with no enclosing binder of its name is an UnboundVariable error |
| Parser.Parse | src/main/java/cn/seecoder/Parser.java:24-28 | a parsed program is closed, and every identifier names its innermost binder |
| Parser.TermLambda | src/main/java/cn/seecoder/Parser.java:31-38 | LAMBDA, LCID, DOT and then a body parsed with the parameter bound innermost give an abstraction over that body |
| Parser.AtomParenthesised | src/main/java/cn/seecoder/Parser.java:73-75 | LPAREN, then a term, then the matching RPAREN is an atom holding that term |
| Parser.AtomIdentifier | src/main/java/cn/seecoder/Parser.java:76-80 | an identifier atom carries the position of its innermost binder |
| Parser.TailStep | src/main/java/cn/seecoder/Parser.java:66-67 | each further atom becomes the right side of an application whose left side is everything parsed so far |
| Parser.TermApplication | src/main/java/cn/seecoder/Parser.java:40-42 | a term that starts with an atom is an application built from that atom onwards |
| Parser.ApplicationFoldsLeft | src/main/java/cn/seecoder/Parser.java:59-70 | three juxtaposed atoms `a b c` parse as `((a b) c)` |
| Printer.Print | src/main/java/cn/seecoder/Application.java:32-34 | the printed form (also Identifier.java:13-15 and Abstraction.java:12-14) is never empty and starts with a digit, a minus sign, `\` or `(`; its partner `ReadPrint` reads it back as the term without names |
| Printer.PrintIdentifier | src/main/java/cn/seecoder/Identifier.java:13-15 | an identifier prints as the decimal numeral of its index and nothing else |
| Printer.NatToStringValue | src/main/java/cn/seecoder/Identifier.java:13-15 | the printed numeral of an index reads back as that index |
| Printer.ReadIntToString | src/main/java/cn/seecoder/Identifier.java:13-15 | any printed index, negative ones included, reads back as itself |
| Printer.ReadPrintAbstraction | src/main/java/cn/seecoder/Abstraction.java:12-14 | an abstraction prints as `\.` directly followed by its body's printed form, which reads back as the abstraction |
| Printer.ReadPrintApplication | src/test/java/cn/seecoder/InterpreterTest.java:186 | an application prints as `(`, its left side, a space, its right side and `)`, which reads back as the application |
| Printer.ReadPrint | src/main/java/cn/seecoder/Application.java:32-34 | the printed form is unambiguous: reading back a printed term gives the term with its names erased and leaves what follows unread |
| Printer.PrintIgnoresNames | src/main/java/cn/seecoder/Identifier.java:5 | display names never reach the printed form |
| Printer.PrintSameIffErasedSame | src/main/java/cn/seecoder/Abstraction.java:4 | two terms print alike exactly when they differ at most in their display names |
| Interpreter.Shift | src/main/java/cn/seecoder/Interpreter.java:102-120 | a shift keeps the tree and every name; only indices change |
| Interpreter.ShiftOccurs | src/main/java/cn/seecoder/Interpreter.java:113-117 | an index below the cutoff stays where it was; an index at or above the cutoff moves up by the amount; nothing lands in the gap just above the cutoff (both directions) |
| Interpreter.ShiftSize | src/main/java/cn/seecoder/Interpreter.java:102-120 | shifting keeps the number of nodes |
| Interpreter.ShiftZero | src/main/java/cn/seecoder/Interpreter.java:102-120 | a shift by zero changes nothing |
| Interpreter.ShiftShift | src/main/java/cn/seecoder/Interpreter.java:102-120 | two shifts at the same cutoff add up when the first one is not downward |
| Interpreter.ShiftUpDown | src/main/java/cn/seecoder/Interpreter.java:102-120 | shifting down by one undoes shifting up by one at the same cutoff, for every term and cutoff |
| Interpreter.ShiftClosed | src/main/java/cn/seecoder/Interpreter.java:113-117 | a term whose indices all lie below the cutoff is left alone by every shift |
| Interpreter.ShiftScoped | src/main/java/cn/seecoder/Interpreter.java:102-120 | shifting up by `k` moves a term scoped in `n` binders into `n + k` binders |
| Interpreter.ShiftUpLeavesHole | src/main/java/cn/seecoder/Interpreter.java:113-117 | after shifting up by one, the cutoff index no longer occurs free |
| Interpreter.ShiftMovesHole | src/main/java/cn/seecoder/Interpreter.java:113-117 | an index missing at the cutoff is missing, after the shift, at the cutoff plus the amount |
| Interpreter.ShiftDownScoped | src/main/java/cn/seecoder/Interpreter.java:113-117 | shifting down over a missing cutoff index never makes an index negative, and it drops the binder count by one |
| Interpreter.Subst | src/main/java/cn/seecoder/Interpreter.java:57-70 | a term in which index `depth` does not occur free is returned unchanged |
| Interpreter.SubstLeavesHole | src/main/java/cn/seecoder/Interpreter.java:57-70 | if the value has no free index 0, the replaced index `depth` no longer occurs in the result |
| Interpreter.SubstScoped | src/main/java/cn/seecoder/Interpreter.java:57-70 | substituting a scoped value (re-indexed by the depth) keeps the term scoped |
| Interpreter.SubstSelf | src/main/java/cn/seecoder/Interpreter.java:57-70 | substituting for index `depth` the variable that index already denotes changes nothing but display names |
| Interpreter.SubstIdentifierSize | src/main/java/cn/seecoder/Interpreter.java:57-70 | substituting an identifier for an identifier keeps the number of nodes |
| Interpreter.Substitute | src/main/java/cn/seecoder/Interpreter.java:50-55 | a body that never uses its parameter ignores the argument and only loses the consumed binder; `SubstituteScoped`, `SubstituteIdentity` and `SubstituteClosed` state the rest |
| Interpreter.SubstituteScoped | src/main/java/cn/seecoder/Interpreter.java:50-55 | beta-reduction under `n` binders yields a term scoped in the same `n` binders: no index dangles or goes negative |
| Interpreter.SubstituteIdentity | src/main/java/cn/seecoder/Interpreter.java:52 | `(\x.x) v` reduces to `v`, for every `v` |
| Interpreter.SubstituteClosed | src/main/java/cn/seecoder/Interpreter.java:52 | a closed body ignores its argument |
| Interpreter.Step | src/main/java/cn/seecoder/Interpreter.java:31-48 | there is no next step exactly when the term is normal; any step taken is a beta step; an application whose left side is an abstraction is replaced by `Substitute(lhs.body, rhs)`; otherwise the left side is reduced while it can be, and only then the right side; the step taken is the normal-order (leftmost-outermost) one at every depth, not only at the root |
| Interpreter.StepIffNormalOrder | src/main/java/cn/seecoder/Interpreter.java:31-48 | `Step` takes `t` to `u` exactly when `u` is the normal-order successor of `t`: root redex first, then the left side while it is not normal, then the right side, and under binders |
| Interpreter.NormalIffNoStep | src/main/java/cn/seecoder/Interpreter.java:33-35 | a term is normal exactly when no beta step applies anywhere in it |
| Interpreter.BetaStepScoped | src/main/java/cn/seecoder/Interpreter.java:33-35 | a beta step keeps a term scoped in its binders |
| Interpreter.Eval | src/main/java/cn/seecoder/Interpreter.java:26-29 | a normal term evaluates to itself; a result is in normal form and is reached from `t` by a sequence of beta steps |
| Interpreter.EvalComplete | src/main/java/cn/seecoder/Interpreter.java:26-48 | when `Step` reaches a normal form in `n` steps and the fuel is at least `n`, `Eval` returns that normal form: `None` only means the fuel ran out |
| Interpreter.EvalSound | src/main/java/cn/seecoder/Interpreter.java:26-48 | conversely, a result of `Eval` is reached by at most `fuel` calls of `Step` |
| Interpreter.Normalize | src/main/java/cn/seecoder/Interpreter.java:31-48 | the reduction loop returns what `Eval` does, and its result is normal |
| Interpreter.EvalScoped | src/main/java/cn/seecoder/Interpreter.java:26-29 | evaluating a closed term gives a closed term |
| Interpreter.EvalIdempotent | src/main/java/cn/seecoder/Interpreter.java:26-29 | evaluating a result again gives it back, whatever the fuel |
| Interpreter.EvalMoreFuel | src/main/java/cn/seecoder/Interpreter.java:32-47 | once the fuel is enough, more fuel gives the same result |
| RoundTrip.ParseShow | src/main/java/cn/seecoder/Parser.java:30-85 | the parser inverts the named printer `Show`: every closed term the parser can produce is read back exactly, names and indices alike |
| RoundTrip.ParseThenShow | src/main/java/cn/seecoder/Parser.java:24-28 | whatever the parser produces can be shown and parsed back to itself |
| Goldens.ZeroTokens | src/test/java/cn/seecoder/InterpreterTest.java:124-134 | `(\f.\x.x)` lexes as LPAREN LAMBDA LCID DOT LAMBDA LCID DOT LCID RPAREN EOF |
| Goldens.ZeroParses | src/test/java/cn/seecoder/InterpreterTest.java:140 | `(\f.\x.x)` parses to `\f.\x.x` with its body bound by the inner binder, index 0 |
| Goldens.ZeroText | src/test/java/cn/seecoder/InterpreterTest.java:146 | ZERO prints as `\.\.0` |
| Goldens.FreeIdentifier | src/main/java/cn/seecoder/Parser.java:79 | the source `x` is rejected as an unbound variable |
| Goldens.SuccZeroText | src/test/java/cn/seecoder/InterpreterTest.java:186 | SUCC ZERO prints as `(\.\.\.(1 ((2 1) 0)) \.\.0)` |
| Goldens.OneGolden | src/test/java/cn/seecoder/InterpreterTest.java:192 | SUCC ZERO normalises to the numeral one |
| Goldens.OneText | src/test/java/cn/seecoder/InterpreterTest.java:192 | the numeral one prints as `\.\.(1 0)` |
| Goldens.AndTrueFalseText | src/test/java/cn/seecoder/InterpreterTest.java:1211 | AND TRUE FALSE prints as `((\.\.((1 0) 1) \.\.1) \.\.0)` |
| Goldens.AndGolden | src/test/java/cn/seecoder/InterpreterTest.java:1217 | AND TRUE FALSE normalises to FALSE |
| Goldens.FalseText | src/test/java/cn/seecoder/InterpreterTest.java:1217 | FALSE prints as `\.\.0` |
| Goldens.IsZeroZeroText | src/test/java/cn/seecoder/InterpreterTest.java:2003 | ISZERO ZERO prints as `(\.((0 \.\.\.0) \.\.1) \.\.0)` |
| Goldens.IsZeroGolden | src/test/java/cn/seecoder/InterpreterTest.java:2009 | ISZERO ZERO normalises to TRUE |
| Goldens.TrueText | src/test/java/cn/seecoder/InterpreterTest.java:2009 | TRUE prints as `\.\.1` |

## Left out

- `InterpreterBuilder.java`. It is a Swing front end and calls code that is not part of this model.
- The earlier iteration under `src/cn/seecoder/`. Its lexer keeps a process-wide cursor.
- `main`, `Lexer.translate` and all console printing.
- The combinator strings in `Interpreter.java:122-155`. Only the ones the goldens use appear, written out as terms.
- Regular expressions. The pattern `[a-z][a-zA-Z]*` is the predicate `IsIdentifier`.
- Mutation. The Java nodes are mutable, and `evalAST` rewrites them in place through `setLhs`/`setRhs`. The model uses immutable terms; `SetLhs` and `SetRhs` return updated copies.
- Interpreter.Subst: the Java `subst` (Interpreter.java:71-85) is an empty stub that returns null. The model implements its doc-comment (lines 57-70).
- Interpreter.Step: the model reduces leftmost-outermost to full normal form, under binders, because the goldens expect `\.\.(1 0)` for SUCC ZERO. The Java `evalAST` (lines 31-48) does three things differently:
  - it returns at the first abstraction;
  - it contracts a redex only when both sides are abstractions, and otherwise evaluates the argument first when the function is an abstraction;
  - it loops forever on a bare identifier, which the model treats as normal.
- Interpreter.Eval: termination is not modelled. The fuel bound makes a divergent term end in `None`.
- Interpreter.Shift: indices are unbounded integers. The Java stores them as decimal strings and adds in 32-bit `int`, so overflow at 2^31 is not modelled. No parsed term comes near that.
- Lexer.NextToken has three departures from the Java:
  - White space (space, tab, CR, LF) is skipped without producing a token. The test goldens require this for spaces (InterpreterTest.java:152-180). The Java token table instead maps a space to EOF (Lexer.java:25).
  - An unknown character is a `LexError`. The Java sets the current token to null (Lexer.java:43-52).
  - At the end of input the current token becomes EOF, as the goldens print it. The Java `nextToken` returns null there and leaves the previous token current (Lexer.java:62).
- Parser.IndexOf: the index is the position in a binder list kept innermost first, as the goldens require. The Java `indexOf` works differently (Parser.java:35, 79):
  - it searches an append-only list that is never popped, so it counts outermost first;
  - it looks up `lexer.tokenvalue` after `skip` has moved on. That field still holds the identifier's own name, because only an unrecognised character rewrites it (Lexer.java:49-51, 56): a following character that is not in the token table sets it to `""`. The model rejects such input as a `LexError`.
- Parser.ParseTerm: a LAMBDA not followed by an identifier and a DOT is an error. The Java discards the results of `skip`/`match` there and carries on.
- Parser.ParseAtom: the atom consumes its own closing RPAREN. In the Java, the RPAREN is consumed by the inner application's failing `atom` call. The trees agree on balanced input.
- Parser.ParseApplication: when no atom can start the application, the model fails with `UnexpectedToken`. The Java `application` (Parser.java:59-70) raises nothing there. Its `atom` returns null, consuming an RPAREN if that is the lookahead, and the loop goes on to build an application whose left side is null, e.g. `null x` for `)x)`. Trees with null nodes are not modelled.
- Parser.Parse: the whole input must be one term followed by EOF. The Java ignores anything after the first term.
- Printer.Print: every application is parenthesised, the outermost included, as the goldens print it (InterpreterTest.java:186). `Application.toString` (Application.java:32-34) adds no parentheses.
- Goldens.SuccZeroText: states the printed form of the parse tree of SUCC ZERO, written out by hand, rather than parsing the source text, which would be too costly to unfold.
- Goldens.AndTrueFalseText: states the printed form of the parse tree of AND TRUE FALSE, written out by hand, for the same reason.
- Goldens.IsZeroZeroText: states the printed form of the parse tree of ISZERO ZERO, written out by hand, for the same reason.
- The full 32-case golden battery of InterpreterTest.java. Only ZERO, SUCC ZERO, AND TRUE FALSE and ISZERO ZERO are checked.
- The parameter of an abstraction is a name only. The Java wraps it in an `Identifier` whose index is never printed or used.

## Findings

| source | as written | input that shows it | evidently intended | confidence | as-written member | corrected member |
|---|---|---|---|---|---|---|
| src/main/java/cn/seecoder/Lexer.java:69-73 | the identifier loop appends `sources[index]` before it tests the pattern, with no bound check, so an identifier that runs to the end of input reads one character past the array | the source `x` (any source that ends in an identifier) | the identifier ends at the end of input and the lexer moves on to EOF | high, not executed | Lexer.IdentifierEndAsWritten | Lexer.IdentifierEnd |

=== FILE: ast.dfy ===
/** The abstract syntax of de Bruijn-indexed lambda terms: the three node
    kinds Identifier, Abstraction and Application, and the structural
    predicates the lexer, parser and normaliser state their contracts in. */
module Ast {

  /** A lambda term. Names are carried for display only; the index of an
      Identifier counts the abstractions between it and its binder,
      innermost = 0. The index is an `int` as in the source, so a shift may
      in principle make it negative; `Scoped` rules that out. */
  datatype Term =
    | Identifier(name: string, index: int)
    | Abstraction(param: string, body: Term)
    | Application(lhs: Term, rhs: Term)

  /** Every identifier refers to one of the `n` binders around `t` or to one
      of the abstractions inside `t`: 0 <= index < n + depth. */
  predicate Scoped(t: Term, n: int) {
    match t
    case Identifier(_, i) => 0 <= i < n
    case Abstraction(_, b) => Scoped(b, n + 1)
    case Application(f, a) => Scoped(f, n) && Scoped(a, n)
  }

  /** Index `d` (as seen from the root of `t`) occurs free in `t`. */
  predicate OccursFree(t: Term, d: int) {
    match t
    case Identifier(_, i) => i == d
    case Abstraction(_, b) => OccursFree(b, d + 1)
    case Application(f, a) => OccursFree(f, d) || OccursFree(a, d)
  }

  /** `t` and `u` are the same tree with the same names; only identifier
      indices may differ. */
  predicate SameShape(t: Term, u: Term) {
    match t
    case Identifier(x, _) => u.Identifier? && u.name == x
    case Abstraction(x, b) => u.Abstraction? && u.param == x && SameShape(b, u.body)
    case Application(f, a) => u.Application? && SameShape(f, u.lhs) && SameShape(a, u.rhs)
  }

  /** Number of nodes; shift and substitution of an identifier by an
      identifier preserve it (`ShiftSize`, `SubstIdentifierSize`). */
  function Size(t: Term): nat {
    match t
    case Identifier(_, _) => 1
    case Abstraction(_, b) => 1 + Size(b)
    case Application(f, a) => 1 + Size(f) + Size(a)
  }

  /** Terms of the same shape have the same size. */
  lemma {:induction false} SameShapeSize(t: Term, u: Term)
    requires SameShape(t, u)
    ensures Size(t) == Size(u)
  {
    match t
    case Identifier(_, _) =>
    case Abstraction(_, b) => SameShapeSize(b, u.body);
    case Application(f, a) => SameShapeSize(f, u.lhs); SameShapeSize(a, u.rhs);
  }

  /** The term with every name blanked out: two terms with the same erasure
      differ only in display names, never in meaning. Erasing keeps every
      free index and every scope. */
  function Erase(t: Term): (r: Term)
    ensures forall d :: OccursFree(r, d) <==> OccursFree(t, d)
    ensures forall n :: Scoped(r, n) <==> Scoped(t, n)
  {
    match t
    case Identifier(_, i) => Identifier("", i)
    case Abstraction(_, b) => Abstraction("", Erase(b))
    case Application(f, a) => Application(Erase(f), Erase(a))
  }

  /** Replaces the left side of an application (the source's `setLhs`). */
  function SetLhs(app: Term, l: Term): (r: Term)
    requires app.Application?
    ensures r.Application? && r.lhs == l && r.rhs == app.rhs
  {
    app.(lhs := l)
  }

  /** Replaces the right side of an application (the source's `setRhs`). */
  function SetRhs(app: Term, s: Term): (r: Term)
    requires app.Application?
    ensures r.Application? && r.lhs == app.lhs && r.rhs == s
  {
    app.(rhs := s)
  }

  /** Setting a side and reading it back gives the value set; setting one
      side never disturbs the other; setting a side to its own value
      changes nothing. */
  lemma AccessorLaws(app: Term, x: Term, y: Term)
    requires app.Application?
    ensures SetLhs(app, x).lhs == x && SetRhs(app, y).rhs == y
    ensures SetLhs(app, x).rhs == app.rhs && SetRhs(app, y).lhs == app.lhs
    ensures SetRhs(SetLhs(app, x), y) == SetLhs(SetRhs(app, y), x) == Application(x, y)
    ensures SetLhs(app, app.lhs) == app && SetRhs(app, app.rhs) == app
  {
  }

  /** A scoped term stays scoped under more binders. */
  lemma {:induction false} ScopedMono(t: Term, n: int, m: int)
    requires Scoped(t, n) && n <= m
    ensures Scoped(t, m)
  {
    match t
    case Identifier(_, _) =>
    case Abstraction(_, b) => ScopedMono(b, n + 1, m + 1);
    case Application(f, a) => ScopedMono(f, n, m); ScopedMono(a, n, m);
  }

  /** A term scoped in `n` binders has no free index at or above `n`. */
  lemma {:induction false} ScopedNotOccurs(t: Term, n: int, d: int)
    requires Scoped(t, n) && d >= n
    ensures !OccursFree(t, d)
  {
    match t
    case Identifier(_, _) =>
    case Abstraction(_, b) => ScopedNotOccurs(b, n + 1, d + 1);
    case Application(f, a) => ScopedNotOccurs(f, n, d); ScopedNotOccurs(a, n, d);
  }
}

=== FILE: goldens.dfy ===
/** Worked examples from the interpreter's test suite: the source
    `(\f.\x.x)` (the Church numeral zero) through the lexer and the
    parser, a free identifier rejected, and three Church-encoded programs
    printed and normalised. */
module Goldens {
  import opened Wrappers
  import opened Ast
  import opened Lexer
  import opened Parser
  import opened Printer
  import opened Interpreter

  const ZeroSource: string := "(\\f.\\x.x)"

  /** `src` is `(\f.\x.x)`, character by character. */
  predicate SpellsZero(src: string) {
    && |src| == 9 && src[0] == '(' && src[1] == '\\' && src[2] == 'f' && src[3] == '.'
    && src[4] == '\\' && src[5] == 'x' && src[6] == '.' && src[7] == 'x' && src[8] == ')'
  }

  /** From position `i` the lexer produces exactly `toks`, EOF included. */
  predicate LexesFrom(src: string, i: nat, toks: seq<Token>) {
    i <= |src| && TokensFrom(src, i).Success? && TokensFrom(src, i).value == toks
  }

  /** A punctuation character spelling `t` sits at position `i`. */
  predicate PunctAt(src: string, i: nat, t: TokenType) {
    t in {LPAREN, RPAREN, LAMBDA, DOT} && i < |src| && src[i] == Spelling(t)[0]
  }

  /** The identifier `x` sits at position `i` and is not followed by a letter. */
  predicate NameAt(src: string, i: nat, x: string) {
    && IsIdentifier(x) && i + |x| <= |src| && src[i..i + |x|] == x
    && (i + |x| == |src| || !IsLetter(src[i + |x|]))
  }

  /** Lexing one punctuation character in front of a known token list. */
  lemma PunctStep(src: string, i: nat, t: TokenType, rest: seq<Token>)
    requires PunctAt(src, i, t) && LexesFrom(src, i + 1, rest)
    ensures LexesFrom(src, i, [Token(t, Spelling(t))] + rest)
  {
    ScanPunctuation(src, i, t);
  }

  /** Lexing one identifier in front of a known token list. */
  lemma NameStep(src: string, i: nat, x: string, rest: seq<Token>)
    requires NameAt(src, i, x) && LexesFrom(src, i + |x|, rest)
    ensures LexesFrom(src, i, [Token(LCID, x)] + rest)
  {
    ScanIdentifier(src, i, x);
  }

  // The suffixes of `(\f.\x.x)`, from the last character backwards.

  lemma ZeroFrom8(src: string)
    requires SpellsZero(src)
    ensures LexesFrom(src, 8, [Token(RPAREN, ")"), EndToken])
  {
    ScanAtEnd(src);
    PunctStep(src, 8, RPAREN, [EndToken]);
  }

  lemma ZeroFrom7(src: string)
    requires SpellsZero(src)
    ensures LexesFrom(src, 7, [Token(LCID, "x"), Token(RPAREN, ")"), EndToken])
  {
    ZeroFrom8(src);
    NameStep(src, 7, "x", [Token(RPAREN, ")"), EndToken]);
  }

  lemma ZeroFrom6(src: string)
    requires SpellsZero(src)
    ensures LexesFrom(src, 6, [Token(DOT, "."), Token(LCID, "x"), Token(RPAREN, ")"), EndToken])
  {
    ZeroFrom7(src);
    PunctStep(src, 6, DOT, [Token(LCID, "x"), Token(RPAREN, ")"), EndToken]);
  }

  lemma ZeroFrom5(src: string)
    requires SpellsZero(src)
    ensures LexesFrom(src, 5, [Token(LCID, "x"), Token(DOT, "."), Token(LCID, "x"), Token(RPAREN, ")"), EndToken])
  {
    ZeroFrom6(src);
    NameStep(src, 5, "x", [Token(DOT, "."), Token(LCID, "x"), Token(RPAREN, ")"), EndToken]);
  }

  lemma ZeroFrom4(src: string)
    requires SpellsZero(src)
    ensures LexesFrom(src, 4, [Token(LAMBDA, "\\"), Token(LCID, "x"), Token(DOT, "."), Token(LCID, "x"),
                               Token(RPAREN, ")"), EndToken])
  {
    ZeroFrom5(src);
    PunctStep(src, 4, LAMBDA, [Token(LCID, "x"), Token(DOT, "."), Token(LCID, "x"), Token(RPAREN, ")"), EndToken]);
  }

  lemma ZeroFrom3(src: string)
    requires SpellsZero(src)
    ensures LexesFrom(src, 3, [Token(DOT, "."), Token(LAMBDA, "\\"), Token(LCID, "x"), Token(DOT, "."),
                               Token(LCID, "x"), Token(RPAREN, ")"), EndToken])
  {
    ZeroFrom4(src);
    PunctStep(src, 3, DOT, [Token(LAMBDA, "\\"), Token(LCID, "x"), Token(DOT, "."), Token(LCID, "x"),
                            Token(RPAREN, ")"), EndToken]);
  }

  lemma ZeroFrom2(src: string)
    requires SpellsZero(src)
    ensures LexesFrom(src, 2, [Token(LCID, "f"), Token(DOT, "."), Token(LAMBDA, "\\"), Token(LCID, "x"),
                               Token(DOT, "."), Token(LCID, "x"), Token(RPAREN, ")"), EndToken])
  {
    ZeroFrom3(src);
    NameStep(src, 2, "f", [Token(DOT, "."), Token(LAMBDA, "\\"), Token(LCID, "x"), Token(DOT, "."),
                           Token(LCID, "x"), Token(RPAREN, ")"), EndToken]);
  }

  lemma ZeroFrom1(src: string)
    requires SpellsZero(src)
    ensures LexesFrom(src, 1, [Token(LAMBDA, "\\"), Token(LCID, "f"), Token(DOT, "."), Token(LAMBDA, "\\"),
                               Token(LCID, "x"), Token(DOT, "."), Token(LCID, "x"), Token(RPAREN, ")"), EndToken])
  {
    ZeroFrom2(src);
    PunctStep(src, 1, LAMBDA, [Token(LCID, "f"), Token(DOT, "."), Token(LAMBDA, "\\"), Token(LCID, "x"),
                               Token(DOT, "."), Token(LCID, "x"), Token(RPAREN, ")"), EndToken]);
  }

  /** `(\f.\x.x)` lexes as LPAREN LAMBDA LCID DOT LAMBDA LCID DOT LCID
      RPAREN EOF. */
  lemma ZeroTokens(src: string)
    requires SpellsZero(src)
    ensures Tokenize(src).Success?
    ensures Tokenize(src).value == [
      Token(LPAREN, "("), Token(LAMBDA, "\\"), Token(LCID, "f"), Token(DOT, "."), Token(LAMBDA, "\\"),
      Token(LCID, "x"), Token(DOT, "."), Token(LCID, "x"), Token(RPAREN, ")"), EndToken]
  {
    ZeroFrom1(src);
    PunctStep(src, 0, LPAREN, [Token(LAMBDA, "\\"), Token(LCID, "f"), Token(DOT, "."), Token(LAMBDA, "\\"),
                               Token(LCID, "x"), Token(DOT, "."), Token(LCID, "x"), Token(RPAREN, ")"), EndToken]);
  }

  /** The literal spells zero. */
  lemma ZeroSpelt()
    ensures SpellsZero(ZeroSource)
  {
  }

  /** The innermost body `x` parses, with `x` bound innermost, to index 0. */
  lemma ZeroBody(src: string)
    requires SpellsZero(src)
    ensures At(src, 7).Success? && At(src, 8).Success?
    ensures ParseTerm(At(src, 7).value, ["x", "f"]) == Success(Parsed(Identifier("x", 0), At(src, 8).value))
  {
    AtIdentifier(src, 7, "x");
    AtPunctuation(src, 8, RPAREN);
    var p := Parsed(Identifier("x", 0), At(src, 8).value);
    AtomIdentifier(At(src, 7).value, ["x", "f"], 0, At(src, 8).value);
    TermApplication(At(src, 7).value, ["x", "f"], p);
  }

  /** `\x.x` parses to an abstraction whose body is index 0. */
  lemma ZeroInner(src: string)
    requires SpellsZero(src)
    ensures At(src, 4).Success? && At(src, 8).Success?
    ensures ParseTerm(At(src, 4).value, ["f"]) == Success(Parsed(Abstraction("x", Identifier("x", 0)), At(src, 8).value))
  {
    ZeroBody(src);
    AtPunctuation(src, 4, LAMBDA);
    AtIdentifier(src, 5, "x");
    AtPunctuation(src, 6, DOT);
    assert [At(src, 5).value.token.value] + ["f"] == ["x", "f"];
    TermLambda(At(src, 4).value, ["f"], At(src, 5).value, At(src, 6).value, At(src, 7).value,
               Parsed(Identifier("x", 0), At(src, 8).value));
  }

  /** The lexer states on `\f.` of `(\f.\x.x)`. */
  lemma ZeroOuterHead(src: string)
    requires SpellsZero(src)
    ensures At(src, 1) == Success(LexerState(src, 2, Token(LAMBDA, "\\")))
    ensures At(src, 2) == Success(LexerState(src, 3, Token(LCID, "f")))
    ensures At(src, 3) == Success(LexerState(src, 4, Token(DOT, ".")))
  {
    AtPunctuation(src, 1, LAMBDA);
    assert src[2..3] == "f";
    AtIdentifier(src, 2, "f");
    AtPunctuation(src, 3, DOT);
  }

  /** `\f.\x.x` parses to two abstractions around index 0. */
  lemma ZeroOuter(src: string)
    requires SpellsZero(src)
    ensures At(src, 1).Success? && At(src, 8).Success?
    ensures ParseTerm(At(src, 1).value, []) ==
            Success(Parsed(Abstraction("f", Abstraction("x", Identifier("x", 0))), At(src, 8).value))
  {
    ZeroOuterHead(src);
    ZeroInner(src);
    var body := Parsed(Abstraction("x", Identifier("x", 0)), At(src, 8).value);
    var lx1, lx2, lx3, lx4 := At(src, 1).value, At(src, 2).value, At(src, 3).value, At(src, 4).value;
    assert [lx2.token.value] + [] == ["f"];
    TermLambda(lx1, [], lx2, lx3, lx4, body);
  }

  /** `(\f.\x.x)` parses to `\f.\x.x`; `ZeroText` gives its printed form `\.\.0`. */
  lemma ZeroParses(src: string)
    requires SpellsZero(src)
    ensures Parse(src) == Success(Abstraction("f", Abstraction("x", Identifier("x", 0))))
  {
    var zero := Abstraction("f", Abstraction("x", Identifier("x", 0)));
    ZeroOuter(src);
    AtPunctuation(src, 0, LPAREN);
    ScanAtEnd(src);
    var lx9 := At(src, 9).value;
    AtomParenthesised(At(src, 0).value, [], At(src, 1).value, Parsed(zero, At(src, 8).value), lx9);
    TermApplication(At(src, 0).value, [], Parsed(zero, lx9));
  }

  /** A free identifier is rejected rather than given an index. */
  lemma FreeIdentifier()
    ensures Parse("x") == Failure(UnboundVariable("x"))
  {
    AtIdentifier("x", 0, "x");
  }

  // ---------------------------------------------------------------------
  // Church encodings, as the parser resolves them

  function ZeroTerm(): Term { Abstraction("f", Abstraction("x", Identifier("x", 0))) }
  function TrueTerm(): Term { Abstraction("x", Abstraction("y", Identifier("x", 1))) }
  function FalseTerm(): Term { Abstraction("x", Abstraction("y", Identifier("y", 0))) }

  /** `\n.\f.\x.f (n f x)` */
  function SuccTerm(): Term {
    Abstraction("n", Abstraction("f", Abstraction("x",
      Application(Identifier("f", 1), Application(Application(Identifier("n", 2), Identifier("f", 1)), Identifier("x", 0))))))
  }

  /** `\p.\q.p q p` */
  function AndTerm(): Term {
    Abstraction("p", Abstraction("q", Application(Application(Identifier("p", 1), Identifier("q", 0)), Identifier("p", 1))))
  }

  /** `\n.n (\x.FALSE) TRUE` */
  function IsZeroTerm(): Term {
    Abstraction("n", Application(Application(Identifier("n", 0), Abstraction("x", FalseTerm())), TrueTerm()))
  }

  /** The numeral one, `\f.\x.f x`. */
  function OneTerm(): Term { Abstraction("f", Abstraction("x", Application(Identifier("f", 1), Identifier("x", 0)))) }

  lemma ZeroText() ensures Print(ZeroTerm()) == "\\.\\.0" { }
  lemma OneText() ensures Print(OneTerm()) == "\\.\\.(1 0)" { }
  lemma TrueText() ensures Print(TrueTerm()) == "\\.\\.1" { }
  lemma FalseText() ensures Print(FalseTerm()) == "\\.\\.0" { }
  lemma SuccText() ensures Print(SuccTerm()) == "\\.\\.\\.(1 ((2 1) 0))" { }
  lemma AndText() ensures Print(AndTerm()) == "\\.\\.((1 0) 1)" { }
  lemma IsZeroText() ensures Print(IsZeroTerm()) == "\\.((0 \\.\\.\\.0) \\.\\.1)" { }

  /** Printing an application from the printed halves. */
  lemma PrintPair(f: Term, a: Term, sf: string, sa: string)
    requires Print(f) == sf && Print(a) == sa
    ensures Print(Application(f, a)) == "(" + sf + " " + sa + ")"
  {
  }

  /** SUCC ZERO prints in the fully parenthesised de Bruijn form. */
  lemma SuccZeroText()
    ensures Print(Application(SuccTerm(), ZeroTerm())) == "(\\.\\.\\.(1 ((2 1) 0)) \\.\\.0)"
  {
    SuccText();
    ZeroText();
    PrintPair(SuccTerm(), ZeroTerm(), "\\.\\.\\.(1 ((2 1) 0))", "\\.\\.0");
  }

  /** SUCC ZERO normalises, in three steps, to the numeral one `\.\.(1 0)`. */
  lemma OneGolden()
    ensures Eval(Application(SuccTerm(), ZeroTerm()), 3) == Some(OneTerm())
  {
  }

  lemma AndTrueText()
    ensures Print(Application(AndTerm(), TrueTerm())) == "(\\.\\.((1 0) 1) \\.\\.1)"
  {
    AndText();
    TrueText();
    PrintPair(AndTerm(), TrueTerm(), "\\.\\.((1 0) 1)", "\\.\\.1");
  }

  /** AND TRUE FALSE prints in the fully parenthesised de Bruijn form. */
  lemma AndTrueFalseText()
    ensures Print(Application(Application(AndTerm(), TrueTerm()), FalseTerm())) == "((\\.\\.((1 0) 1) \\.\\.1) \\.\\.0)"
  {
    AndTrueText();
    FalseText();
    PrintPair(Application(AndTerm(), TrueTerm()), FalseTerm(), "(\\.\\.((1 0) 1) \\.\\.1)", "\\.\\.0");
  }

  /** AND TRUE FALSE normalises to FALSE, `\.\.0`. */
  lemma AndGolden()
    ensures Eval(Application(Application(AndTerm(), TrueTerm()), FalseTerm()), 4) == Some(FalseTerm())
  {
  }

  /** ISZERO ZERO prints in the fully parenthesised de Bruijn form. */
  lemma IsZeroZeroText()
    ensures Print(Application(IsZeroTerm(), ZeroTerm())) == "(\\.((0 \\.\\.\\.0) \\.\\.1) \\.\\.0)"
  {
    IsZeroText();
    ZeroText();
    PrintPair(IsZeroTerm(), ZeroTerm(), "\\.((0 \\.\\.\\.0) \\.\\.1)", "\\.\\.0");
  }

  /** ISZERO ZERO normalises to TRUE, `\.\.1`. */
  lemma IsZeroGolden()
    ensures Eval(Application(IsZeroTerm(), ZeroTerm()), 3) == Some(TrueTerm())
  {
  }
}

=== FILE: interpreter.dfy ===
/** The normaliser: de Bruijn shifting, substitution, the beta-reduction
    step and the fuel-bounded reduction loop. */
module Interpreter {
  import opened Wrappers
  import opened Ast

  /** Adds `amount` to every identifier whose index is at least `from`, the
      cutoff that counts the binders crossed on the way down; identifiers
      below the cutoff are bound inside the region and stay as they are. */
  function Shift(amount: int, node: Term, from: int): (r: Term)
    ensures SameShape(node, r)
  {
    match node
    case Application(f, a) => Application(Shift(amount, f, from), Shift(amount, a, from))
    case Abstraction(p, b) => Abstraction(p, Shift(amount, b, from + 1))
    case Identifier(x, i) => Identifier(x, if i >= from then i + amount else i)
  }

  /** Replaces the identifiers of `node` that refer to the variable bound
      `depth` binders up by `value`, re-indexed for the `depth` binders it
      is moved under. */
  function Subst(node: Term, value: Term, depth: int): (r: Term)
    ensures !OccursFree(node, depth) ==> r == node
  {
    match node
    case Application(f, a) => Application(Subst(f, value, depth), Subst(a, value, depth))
    case Abstraction(p, b) => Abstraction(p, Subst(b, value, depth + 1))
    case Identifier(_, i) => if i == depth then Shift(depth, value, 0) else node
  }

  /** The beta-reduction of `(\.body) value`: lift `value` over the binder,
      replace index 0 in `body`, and lower what is left by the consumed
      binder. A body that never uses its parameter ignores the argument
      and only loses the consumed binder. */
  function Substitute(body: Term, value: Term): (r: Term)
    ensures !OccursFree(body, 0) ==> r == Shift(-1, body, 0)
  {
    Shift(-1, Subst(body, Shift(1, value, 0), 0), 0)
  }

  /** No application anywhere in `t` has an abstraction on its left. */
  predicate IsNormal(t: Term) {
    match t
    case Identifier(_, _) => true
    case Abstraction(_, b) => IsNormal(b)
    case Application(f, a) => !f.Abstraction? && IsNormal(f) && IsNormal(a)
  }

  /** One beta step anywhere in `t`: the relation the reduction strategy
      must stay inside. */
  predicate BetaStep(t: Term, u: Term) {
    match t
    case Identifier(_, _) => false
    case Abstraction(p, b) => u.Abstraction? && u.param == p && BetaStep(b, u.body)
    case Application(f, a) =>
      || (f.Abstraction? && u == Substitute(f.body, a))
      || (u.Application? && u.rhs == a && BetaStep(f, u.lhs))
      || (u.Application? && u.lhs == f && BetaStep(a, u.rhs))
  }

  /** `t` reaches `u` in exactly `n` beta steps. */
  ghost predicate BetaSteps(t: Term, u: Term, n: nat)
    decreases n
  {
    if n == 0 then t == u else exists v :: BetaStep(t, v) && BetaSteps(v, u, n - 1)
  }

  /** `t` reaches `u` in some number of beta steps. */
  ghost predicate BetaStar(t: Term, u: Term) {
    exists n: nat :: BetaSteps(t, u, n)
  }

  /** A beta step in front of a reduction is a reduction. */
  lemma BetaStarCons(t: Term, u: Term, w: Term)
    requires BetaStep(t, u) && BetaStar(u, w)
    ensures BetaStar(t, w)
  {
    var n: nat :| BetaSteps(u, w, n);
    assert BetaSteps(t, w, n + 1);
  }

  /** Every term reaches itself. */
  lemma BetaStarRefl(t: Term)
    ensures BetaStar(t, t)
  {
    assert BetaSteps(t, t, 0);
  }

  /** The normal-order (leftmost-outermost) choice among the beta steps of
      `t`: a redex at the root is contracted; otherwise the left side of an
      application is reduced while it is not normal, and only then the right
      side; an abstraction is reduced under its binder. */
  predicate NormalOrderStep(t: Term, u: Term) {
    match t
    case Identifier(_, _) => false
    case Abstraction(p, b) => u.Abstraction? && u.param == p && NormalOrderStep(b, u.body)
    case Application(f, a) =>
      if f.Abstraction? then u == Substitute(f.body, a)
      else if !IsNormal(f) then u.Application? && u.rhs == a && NormalOrderStep(f, u.lhs)
      else u.Application? && u.lhs == f && NormalOrderStep(a, u.rhs)
  }

  /** One step of leftmost-outermost reduction: an application whose left
      side is an abstraction is contracted at once; otherwise the left side
      is reduced first, then the right side; abstractions are reduced under
      the binder. None means there is nothing left to reduce. */
  function Step(t: Term): (r: Option<Term>)
    ensures r.None? <==> IsNormal(t)
    ensures r.Some? ==> BetaStep(t, r.value)
    ensures r.Some? ==> NormalOrderStep(t, r.value)
    ensures t.Application? && t.lhs.Abstraction? ==> r == Some(Substitute(t.lhs.body, t.rhs))
    ensures t.Application? && !t.lhs.Abstraction? && !IsNormal(t.lhs) ==>
              r.Some? && r.value.Application? && r.value.rhs == t.rhs && BetaStep(t.lhs, r.value.lhs)
    ensures t.Application? && !t.lhs.Abstraction? && IsNormal(t.lhs) && !IsNormal(t.rhs) ==>
              r.Some? && r.value.Application? && r.value.lhs == t.lhs && BetaStep(t.rhs, r.value.rhs)
  {
    match t
    case Identifier(_, _) => None
    case Abstraction(p, b) =>
      (match Step(b)
       case Some(b') => Some(Abstraction(p, b'))
       case None => None)
    case Application(f, a) =>
      if f.Abstraction? then Some(Substitute(f.body, a))
      else
        match Step(f)
        case Some(f') => Some(Application(f', a))
        case None =>
          (match Step(a)
           case Some(a') => Some(Application(f, a'))
           case None => None)
  }

  /** `Step` is the normal-order step and nothing else: it takes `t` to `u`
      exactly when `u` is the normal-order successor of `t`. */
  lemma {:induction false} StepIffNormalOrder(t: Term, u: Term)
    ensures Step(t) == Some(u) <==> NormalOrderStep(t, u)
  {
    match t
    case Identifier(_, _) =>
    case Abstraction(p, b) =>
      if u.Abstraction? {
        StepIffNormalOrder(b, u.body);
      }
    case Application(f, a) =>
      if !f.Abstraction? && u.Application? {
        StepIffNormalOrder(f, u.lhs);
        StepIffNormalOrder(a, u.rhs);
      }
  }

  /** `t` reaches `u` by exactly `n` calls of `Step`. */
  predicate StepsTo(t: Term, u: Term, n: nat)
    decreases n
  {
    if n == 0 then t == u else Step(t).Some? && StepsTo(Step(t).value, u, n - 1)
  }

  /** Repeats `Step` until the term is normal, at most `fuel` times; None
      when the fuel runs out first (the untyped calculus has terms with no
      normal form). */
  function Eval(t: Term, fuel: nat): (r: Option<Term>)
    ensures IsNormal(t) ==> r == Some(t)
    ensures r.Some? ==> IsNormal(r.value)
    ensures r.Some? ==> BetaStar(t, r.value)
    decreases fuel
  {
    match Step(t)
    case None => BetaStarRefl(t); Some(t)
    case Some(u) =>
      if fuel == 0 then None
      else
        var r := Eval(u, fuel - 1);
        if r.Some? then BetaStarCons(t, u, r.value); r else r
  }

  /** When `Step` reaches a normal form within the fuel, `Eval` returns
      it: None only means the fuel ran out first. */
  lemma {:induction false} EvalComplete(t: Term, u: Term, n: nat, fuel: nat)
    requires StepsTo(t, u, n) && IsNormal(u) && n <= fuel
    ensures Eval(t, fuel) == Some(u)
    decreases n
  {
    if n > 0 {
      EvalComplete(Step(t).value, u, n - 1, fuel - 1);
    }
  }

  /** Conversely, a result of `Eval` is reached by at most `fuel` calls of
      `Step`. */
  lemma {:induction false} EvalSound(t: Term, fuel: nat)
    requires Eval(t, fuel).Some?
    ensures exists n: nat :: n <= fuel && StepsTo(t, Eval(t, fuel).value, n)
    decreases fuel
  {
    if Step(t).None? {
      assert StepsTo(t, t, 0);
    } else {
      var u := Step(t).value;
      EvalSound(u, fuel - 1);
      var n: nat :| n <= fuel - 1 && StepsTo(u, Eval(u, fuel - 1).value, n);
      assert StepsTo(t, Eval(t, fuel).value, n + 1);
    }
  }

  /** The reduction loop as a loop: steps until normal or out of fuel. */
  method Normalize(t: Term, fuel: nat) returns (r: Option<Term>)
    ensures r == Eval(t, fuel)
    ensures r.Some? ==> IsNormal(r.value)
  {
    var cur := t;
    var left := fuel;
    while left > 0 && Step(cur).Some?
      invariant Eval(cur, left) == Eval(t, fuel)
      decreases left
    {
      cur := Step(cur).value;
      left := left - 1;
    }
    if Step(cur).None? {
      r := Some(cur);
    } else {
      r := None;
    }
  }

  // ---------------------------------------------------------------------
  // Laws of shifting

  /** Shifting by zero changes nothing. */
  lemma {:induction false} ShiftZero(t: Term, from: int)
    ensures Shift(0, t, from) == t
  {
    match t
    case Identifier(_, _) =>
    case Abstraction(_, b) => ShiftZero(b, from + 1);
    case Application(f, a) => ShiftZero(f, from); ShiftZero(a, from);
  }

  /** Two shifts at the same cutoff add up, provided the first one does not
      move any index below the cutoff. */
  lemma {:induction false} ShiftShift(t: Term, first: int, second: int, from: int)
    requires first >= 0
    ensures Shift(second, Shift(first, t, from), from) == Shift(first + second, t, from)
  {
    match t
    case Identifier(_, _) =>
    case Abstraction(_, b) => ShiftShift(b, first, second, from + 1);
    case Application(f, a) => ShiftShift(f, first, second, from); ShiftShift(a, first, second, from);
  }

  /** Shifting down undoes shifting up at the same cutoff. */
  lemma ShiftUpDown(t: Term, from: int)
    ensures Shift(-1, Shift(1, t, from), from) == t
  {
    ShiftShift(t, 1, -1, from);
    ShiftZero(t, from);
  }

  /** Which free indices a shift produces: an index below the cutoff stays
      where it was; an index at or above it moves up by `amount`; nothing
      lands in the `amount` indices just above the cutoff. */
  lemma {:induction false} ShiftOccurs(t: Term, amount: int, from: int, d: int)
    requires amount >= 0
    ensures OccursFree(Shift(amount, t, from), d) <==>
            (d < from && OccursFree(t, d)) || (d >= from + amount && OccursFree(t, d - amount))
  {
    match t
    case Identifier(_, _) =>
    case Abstraction(_, b) => ShiftOccurs(b, amount, from + 1, d + 1);
    case Application(f, a) => ShiftOccurs(f, amount, from, d); ShiftOccurs(a, amount, from, d);
  }

  /** Shifting keeps the size of a term. */
  lemma {:induction false} ShiftSize(t: Term, amount: int, from: int)
    ensures Size(Shift(amount, t, from)) == Size(t)
  {
    SameShapeSize(t, Shift(amount, t, from));
  }

  /** A term whose identifiers all lie below the cutoff is left alone by
      every shift: only indices reaching past the cutoff move. */
  lemma {:induction false} ShiftClosed(t: Term, amount: int, from: int)
    requires Scoped(t, from)
    ensures Shift(amount, t, from) == t
  {
    match t
    case Identifier(_, _) =>
    case Abstraction(_, b) => ShiftClosed(b, amount, from + 1);
    case Application(f, a) => ShiftClosed(f, amount, from); ShiftClosed(a, amount, from);
  }

  /** Shifting up by `amount` moves a term scoped in `n` binders into
      `n + amount` binders. */
  lemma {:induction false} ShiftScoped(t: Term, n: int, amount: int, from: int)
    requires Scoped(t, n) && amount >= 0
    ensures Scoped(Shift(amount, t, from), n + amount)
  {
    match t
    case Identifier(_, _) =>
    case Abstraction(_, b) => ShiftScoped(b, n + 1, amount, from + 1);
    case Application(f, a) => ShiftScoped(f, n, amount, from); ShiftScoped(a, n, amount, from);
  }

  /** After shifting up by one at a cutoff, the cutoff index itself no
      longer occurs: it is the hole the new binder fills. */
  lemma {:induction false} ShiftUpLeavesHole(t: Term, from: int)
    ensures !OccursFree(Shift(1, t, from), from)
  {
    match t
    case Identifier(_, _) =>
    case Abstraction(_, b) => ShiftUpLeavesHole(b, from + 1);
    case Application(f, a) => ShiftUpLeavesHole(f, from); ShiftUpLeavesHole(a, from);
  }

  /** A hole at the cutoff moves up with the shift. */
  lemma {:induction false} ShiftMovesHole(t: Term, from: int, amount: int)
    requires amount >= 0 && !OccursFree(t, from)
    ensures !OccursFree(Shift(amount, t, from), from + amount)
  {
    match t
    case Identifier(_, _) =>
    case Abstraction(_, b) => ShiftMovesHole(b, from + 1, amount);
    case Application(f, a) => ShiftMovesHole(f, from, amount); ShiftMovesHole(a, from, amount);
  }

  /** Shifting down by one over a hole at the cutoff keeps every index
      non-negative and lowers the binder count by one. */
  lemma {:induction false} ShiftDownScoped(t: Term, m: int, from: int)
    requires Scoped(t, m + 1) && !OccursFree(t, from) && 0 <= from <= m
    ensures Scoped(Shift(-1, t, from), m)
  {
    match t
    case Identifier(_, _) =>
    case Abstraction(_, b) => ShiftDownScoped(b, m + 1, from + 1);
    case Application(f, a) => ShiftDownScoped(f, m, from); ShiftDownScoped(a, m, from);
  }

  // ---------------------------------------------------------------------
  // Laws of substitution

  /** Substituting a value scoped in `k` binders at depth `depth` keeps a
      term scoped in `m >= depth + k` binders scoped. */
  lemma {:induction false} SubstScoped(t: Term, value: Term, depth: int, m: int, k: int)
    requires Scoped(t, m) && Scoped(value, k) && 0 <= depth && depth + k <= m
    ensures Scoped(Subst(t, value, depth), m)
  {
    match t
    case Identifier(_, i) =>
      if i == depth {
        ShiftScoped(value, k, depth, 0);
        ScopedMono(Shift(depth, value, 0), k + depth, m);
      }
    case Abstraction(_, b) => SubstScoped(b, value, depth + 1, m + 1, k);
    case Application(f, a) => SubstScoped(f, value, depth, m, k); SubstScoped(a, value, depth, m, k);
  }

  /** When the value has a hole at 0, the substituted index `depth`
      disappears from the term. */
  lemma {:induction false} SubstLeavesHole(t: Term, value: Term, depth: int)
    requires !OccursFree(value, 0) && depth >= 0
    ensures !OccursFree(Subst(t, value, depth), depth)
  {
    match t
    case Identifier(_, i) =>
      if i == depth {
        ShiftMovesHole(value, 0, depth);
      }
    case Abstraction(_, b) => SubstLeavesHole(b, value, depth + 1);
    case Application(f, a) => SubstLeavesHole(f, value, depth); SubstLeavesHole(a, value, depth);
  }

  /** Substituting for index `depth` the variable that index itself
      denotes changes nothing but display names. */
  lemma {:induction false} SubstSelf(t: Term, x: string, depth: int)
    requires depth >= 0
    ensures Erase(Subst(t, Identifier(x, 0), depth)) == Erase(t)
  {
    match t
    case Identifier(_, _) =>
    case Abstraction(_, b) => SubstSelf(b, x, depth + 1);
    case Application(f, a) => SubstSelf(f, x, depth); SubstSelf(a, x, depth);
  }

  /** Substituting an identifier for an identifier keeps the size of a
      term. */
  lemma {:induction false} SubstIdentifierSize(t: Term, x: string, k: int, depth: int)
    ensures Size(Subst(t, Identifier(x, k), depth)) == Size(t)
  {
    match t
    case Identifier(_, _) =>
    case Abstraction(_, b) => SubstIdentifierSize(b, x, k, depth + 1);
    case Application(f, a) => SubstIdentifierSize(f, x, k, depth); SubstIdentifierSize(a, x, k, depth);
  }

  /** Beta-reduction is capture-avoiding and well-scoped: contracting
      `(\.body) value` under `n` binders yields a term scoped in the same
      `n` binders, so no index ever becomes negative or dangling. */
  lemma SubstituteScoped(body: Term, value: Term, n: int)
    requires n >= 0 && Scoped(body, n + 1) && Scoped(value, n)
    ensures Scoped(Substitute(body, value), n)
  {
    var lifted := Shift(1, value, 0);
    ShiftScoped(value, n, 1, 0);
    ShiftUpLeavesHole(value, 0);
    var replaced := Subst(body, lifted, 0);
    SubstScoped(body, lifted, 0, n + 1, n + 1);
    SubstLeavesHole(body, lifted, 0);
    ShiftDownScoped(replaced, n, 0);
  }

  /** The identity function returns its argument: `(\x.x) v` reduces to
      `v` for every `v`. */
  lemma SubstituteIdentity(x: string, value: Term)
    ensures Substitute(Identifier(x, 0), value) == value
  {
    ShiftZero(Shift(1, value, 0), 0);
    ShiftUpDown(value, 0);
  }

  /** A closed body ignores its argument: `(\x.c) v` reduces to `c`. */
  lemma SubstituteClosed(body: Term, value: Term)
    requires Scoped(body, 0)
    ensures Substitute(body, value) == body
  {
    ScopedNotOccurs(body, 0, 0);
    ShiftClosed(body, -1, 0);
  }

  // ---------------------------------------------------------------------
  // Laws of reduction

  /** Normal forms are exactly the terms with no beta step. */
  lemma NormalIffNoStep(t: Term)
    ensures IsNormal(t) <==> !exists u :: BetaStep(t, u)
  {
    if !IsNormal(t) {
      var u := Step(t).value;
      assert BetaStep(t, u);
      assert exists w :: BetaStep(t, w);
    }
    else {
      forall u ensures !BetaStep(t, u) {
        NormalHasNoStep(t, u);
      }
    }
  }

  lemma {:induction false} NormalHasNoStep(t: Term, u: Term)
    requires IsNormal(t)
    ensures !BetaStep(t, u)
  {
    match t
    case Identifier(_, _) =>
    case Abstraction(_, b) => if u.Abstraction? { NormalHasNoStep(b, u.body); }
    case Application(f, a) =>
      if u.Application? {
        NormalHasNoStep(f, u.lhs);
        NormalHasNoStep(a, u.rhs);
      }
  }

  /** A reduction step keeps a term scoped in its binders. */
  lemma {:induction false} BetaStepScoped(t: Term, u: Term, n: int)
    requires n >= 0 && Scoped(t, n) && BetaStep(t, u)
    ensures Scoped(u, n)
  {
    match t
    case Identifier(_, _) =>
    case Abstraction(_, b) => BetaStepScoped(b, u.body, n + 1);
    case Application(f, a) =>
      if f.Abstraction? && u == Substitute(f.body, a) {
        SubstituteScoped(f.body, a, n);
      } else if u.Application? && u.rhs == a && BetaStep(f, u.lhs) {
        BetaStepScoped(f, u.lhs, n);
      } else {
        BetaStepScoped(a, u.rhs, n);
      }
  }

  /** Evaluation keeps a term scoped: a closed term evaluates to a closed
      term. */
  lemma {:induction false} EvalScoped(t: Term, fuel: nat, n: int)
    requires n >= 0 && Scoped(t, n) && Eval(t, fuel).Some?
    ensures Scoped(Eval(t, fuel).value, n)
    decreases fuel
  {
    match Step(t)
    case None =>
    case Some(u) =>
      BetaStepScoped(t, u, n);
      EvalScoped(u, fuel - 1, n);
  }

  /** Evaluating a result again returns it unchanged, whatever the fuel. */
  lemma EvalIdempotent(t: Term, fuel: nat, more: nat)
    requires Eval(t, fuel).Some?
    ensures Eval(Eval(t, fuel).value, more) == Eval(t, fuel)
  {
  }

  /** The result does not depend on the fuel, once there is enough. */
  lemma {:induction false} EvalMoreFuel(t: Term, fuel: nat, more: nat)
    requires Eval(t, fuel).Some? && fuel <= more
    ensures Eval(t, more) == Eval(t, fuel)
    decreases fuel
  {
    match Step(t)
    case None =>
    case Some(u) => EvalMoreFuel(u, fuel - 1, more - 1);
  }
}

=== FILE: lexer.dfy ===
/** The tokenizer: a cursor over the source characters that holds the
    current token, with the `next` / `match` / `skip` operations the parser
    drives it with. */
module Lexer {
  import opened Wrappers

  datatype TokenType = LPAREN | RPAREN | LAMBDA | DOT | LCID | EOF

  /** A token and its text. The text of an identifier is its name; the
      text of a punctuation token is its one character; EOF has none. */
  datatype Token = Token(kind: TokenType, value: string)

  const EndToken := Token(EOF, "")

  /** Unrecognised character `ch` at offset `offset` of the source. */
  datatype LexError = LexError(ch: char, offset: nat)

  predicate IsLower(c: char) { 'a' <= c <= 'z' }

  predicate IsLetter(c: char) { 'a' <= c <= 'z' || 'A' <= c <= 'Z' }

  predicate IsWhitespace(c: char) { c == ' ' || c == '\t' || c == '\n' || c == '\r' }

  /** The identifier class `[a-z][a-zA-Z]*`. */
  predicate IsIdentifier(s: string) {
    |s| > 0 && IsLower(s[0]) && forall k :: 1 <= k < |s| ==> IsLetter(s[k])
  }

  /** The one-character spelling of each punctuation token type. */
  function Spelling(t: TokenType): string
    requires t in {LPAREN, RPAREN, LAMBDA, DOT}
  {
    match t
    case LPAREN => "("
    case RPAREN => ")"
    case LAMBDA => "\\"
    case DOT => "."
  }

  /** The token table: which token type a character starts. Punctuation
      stands for itself, a lower-case letter starts an identifier, and
      anything else (white space aside) is not part of the language. */
  function TypeOf(c: char): (r: Option<TokenType>)
    ensures r == Some(LCID) <==> IsLower(c)
    ensures r.Some? && r.value != LCID ==> r.value in {LPAREN, RPAREN, LAMBDA, DOT} && Spelling(r.value) == [c]
    ensures r != Some(EOF)
  {
    if c == '.' then Some(DOT)
    else if c == '(' then Some(LPAREN)
    else if c == ')' then Some(RPAREN)
    else if c == '\\' then Some(LAMBDA)
    else if IsLower(c) then Some(LCID)
    else None
  }

  /** Every punctuation type is recognised from its own spelling, so the
      table is a bijection between the four characters and the four types. */
  lemma TypeOfSpelling(t: TokenType)
    requires t in {LPAREN, RPAREN, LAMBDA, DOT}
    ensures TypeOf(Spelling(t)[0]) == Some(t)
  {
  }

  /** The first position at or after `i` that is not white space. */
  function SkipWhitespace(src: string, i: nat): (j: nat)
    requires i <= |src|
    ensures i <= j <= |src|
    ensures j == |src| || !IsWhitespace(src[j])
    decreases |src| - i
  {
    if i == |src| || !IsWhitespace(src[i]) then i else SkipWhitespace(src, i + 1)
  }

  /** The number of letters starting at `i`. */
  function LetterRun(src: string, i: nat): (n: nat)
    requires i <= |src|
    ensures i + n <= |src|
    ensures forall k :: i <= k < i + n ==> IsLetter(src[k])
    ensures i + n == |src| || !IsLetter(src[i + n])
    decreases |src| - i
  {
    if i == |src| || !IsLetter(src[i]) then 0 else 1 + LetterRun(src, i + 1)
  }

  /** The end of the longest identifier starting at `i`: greedy, so the
      identifier is followed by the end of input or by a non-letter. */
  function IdentifierEnd(src: string, i: nat): (j: nat)
    requires i < |src| && IsLower(src[i])
    ensures i < j <= |src|
    ensures IsIdentifier(src[i..j])
    ensures j == |src| || !IsLetter(src[j])
  {
    i + 1 + LetterRun(src, i + 1)
  }

  // ---------------------------------------------------------------------
  // The identifier scan as the Java lexer writes it. Its do-while loop
  // appends `sources[index]` before it tests the pattern, so when the
  // identifier runs to the end of the input the loop reads one character
  // past the end and the scan fails with an index-out-of-bounds error
  // (`None` here). `IdentifierEnd` above is the intended scan.

  /** One turn of the loop onwards: `src[i..idx]` is the identifier read
      so far and `idx` is the next character to append. When the appended
      character breaks the pattern, the Java index has moved to `idx + 1`;
      it then steps back by two and forward by one, so it ends at `idx`,
      the first character after the identifier. */
  function ScanLoopAsWritten(src: string, i: nat, idx: nat): (r: Option<nat>)
    requires i < idx <= |src| && IsIdentifier(src[i..idx])
    ensures r.Some? ==> idx <= r.value < |src|
    decreases |src| - idx
  {
    if idx == |src| then None
    else if IsIdentifier(src[i..idx + 1]) then ScanLoopAsWritten(src, i, idx + 1)
    else Some(idx)
  }

  /** The scan of an identifier starting at `i`, as written. */
  function IdentifierEndAsWritten(src: string, i: nat): (r: Option<nat>)
    requires i < |src| && IsLower(src[i])
    ensures r.Some? ==> i < r.value < |src|
  {
    assert IsIdentifier(src[i..i + 1]);
    ScanLoopAsWritten(src, i, i + 1)
  }

  /** An identifier grows by one character exactly when that character
      is a letter. */
  lemma IdentifierExtend(src: string, i: nat, idx: nat)
    requires i < idx < |src| && IsIdentifier(src[i..idx])
    ensures IsIdentifier(src[i..idx + 1]) <==> IsLetter(src[idx])
  {
    var t := src[i..idx + 1];
    assert t[idx - i] == src[idx];
    if IsLetter(src[idx]) {
      forall k | 1 <= k < |t| ensures IsLetter(t[k]) {
        if k < idx - i {
          assert t[k] == src[i..idx][k];
        }
      }
    }
  }

  /** The loop as written stops where the letters stop, unless they run
      to the end of the input. */
  lemma {:induction false} ScanLoopAgrees(src: string, i: nat, idx: nat)
    requires i < idx <= |src| && IsIdentifier(src[i..idx])
    ensures ScanLoopAsWritten(src, i, idx) ==
            (if idx + LetterRun(src, idx) == |src| then None else Some(idx + LetterRun(src, idx)))
    decreases |src| - idx
  {
    if idx < |src| {
      IdentifierExtend(src, i, idx);
      if IsLetter(src[idx]) {
        ScanLoopAgrees(src, i, idx + 1);
      }
    }
  }

  /** The scan as written agrees with `IdentifierEnd` when something
      follows the identifier, and fails exactly when nothing does. */
  lemma IdentifierEndAgrees(src: string, i: nat)
    requires i < |src| && IsLower(src[i])
    ensures IdentifierEndAsWritten(src, i).None? <==> IdentifierEnd(src, i) == |src|
    ensures IdentifierEnd(src, i) < |src| ==> IdentifierEndAsWritten(src, i) == Some(IdentifierEnd(src, i))
  {
    assert IsIdentifier(src[i..i + 1]);
    ScanLoopAgrees(src, i, i + 1);
  }

  /** The input `x`: the intended scan ends the identifier at the end of
      input; the scan as written runs off it. */
  lemma IdentifierAtEndOfInput()
    ensures IdentifierEnd("x", 0) == 1
    ensures IdentifierEndAsWritten("x", 0).None?
  {
    IdentifierEndAgrees("x", 0);
  }

  /** Scans the token that starts at or after position `i`: white space is
      skipped, punctuation is one character, an identifier is the longest
      run of letters, and at the end of input the result is EOF with the
      position left where it is. */
  function NextToken(src: string, i: nat): (r: Result<(Token, nat), LexError>)
    requires i <= |src|
    ensures r.Success? ==> i <= r.value.1 <= |src|
    ensures r.Success? ==> (r.value.0.kind == EOF <==> r.value.1 == |src| && SkipWhitespace(src, i) == |src|)
    ensures r.Success? && r.value.0.kind == EOF ==> r.value.0 == EndToken
    ensures r.Success? && r.value.0.kind != EOF ==>
              var j := SkipWhitespace(src, i);
              && |r.value.0.value| > 0
              && r.value.1 == j + |r.value.0.value|
              && src[j..r.value.1] == r.value.0.value
    ensures r.Success? ==> WellFormed(r.value.0)
    ensures r.Failure? ==>
              var e := r.error;
              && e.offset == SkipWhitespace(src, i) < |src|
              && e.ch == src[e.offset] && TypeOf(e.ch).None?
  {
    var j := SkipWhitespace(src, i);
    if j == |src| then Success((EndToken, j))
    else
      var t := TypeOf(src[j]);
      if t.None? then Failure(LexError(src[j], j))
      else if t.value == LCID then
        var k := IdentifierEnd(src, j);
        Success((Token(LCID, src[j..k]), k))
      else Success((Token(t.value, [src[j]]), j + 1))
  }

  /** A token's text agrees with its type. */
  predicate WellFormed(tok: Token) {
    match tok.kind
    case LCID => IsIdentifier(tok.value)
    case EOF => tok.value == ""
    case _ => tok.value == Spelling(tok.kind)
  }

  /** A lexer state: the source, the position just after the current
      token, and the current token. EOF is only ever current at the end
      of the input. */
  datatype LexerState = LexerState(source: string, index: nat, token: Token)

  type Lexer = lx: LexerState
    | && lx.index <= |lx.source|
      && WellFormed(lx.token)
      && (lx.token.kind == EOF ==> lx.index == |lx.source|)
    witness LexerState("", 0, EndToken)

  /** Tokens left to consume, counting the current one unless it is EOF;
      every consumed token lowers it. */
  function Remaining(lx: Lexer): nat {
    |lx.source| - lx.index + (if lx.token.kind == EOF then 0 else 1)
  }

  /** The lexer whose current token is the one scanned from position `i`. */
  function At(src: string, i: nat): (r: Result<Lexer, LexError>)
    requires i <= |src|
    ensures r.Success? ==> r.value.source == src && i <= r.value.index
  {
    var (tok, j) :- NextToken(src, i);
    Success(LexerState(src, j, tok))
  }

  /** A lexer on `source` whose current token is the first one: the text
      at the first non-blank position, with the position just past it. */
  function Start(source: string): (r: Result<Lexer, LexError>)
    ensures r.Failure? <==> NextToken(source, 0).Failure?
    ensures r.Failure? ==> r.error.offset == SkipWhitespace(source, 0)
    ensures r.Success? ==> r.value.source == source
    ensures r.Success? ==> (r.value.token.kind == EOF <==> SkipWhitespace(source, 0) == |source|)
    ensures r.Success? && r.value.token.kind != EOF ==>
              SkipWhitespace(source, 0) < r.value.index &&
              source[SkipWhitespace(source, 0)..r.value.index] == r.value.token.value
  {
    At(source, 0)
  }

  /** Moves to the next token; at the end of input it stays on EOF. */
  function Advance(lx: Lexer): (r: Result<Lexer, LexError>)
    ensures r.Success? ==> r.value.source == lx.source
    ensures r.Success? ==> Remaining(r.value) <= Remaining(lx)
    ensures r.Success? && lx.token.kind != EOF ==> Remaining(r.value) < Remaining(lx)
    ensures lx.token.kind == EOF ==> r == Success(lx)
  {
    At(lx.source, lx.index)
  }

  /** Whether the current token has type `t`; never moves. A lexer that
      answers yes to EOF is at the end of its input, and a token of the
      type asked for has that type's text. */
  function Next(lx: Lexer, t: TokenType): (r: bool)
    ensures r ==> WellFormed(Token(t, lx.token.value))
    ensures r && t == EOF ==> lx.index == |lx.source| && lx.token == EndToken
    ensures !r ==> lx.token.kind != t
  {
    lx.token.kind == t
  }

  /** Consumes the current token if it has type `t` and says whether it
      did; on a mismatch the lexer is returned as it was. */
  function Match(lx: Lexer, t: TokenType): (r: Result<(bool, Lexer), LexError>)
    ensures !Next(lx, t) ==> r == Success((false, lx))
    ensures Next(lx, t) ==> r.Failure? || r.value.0
    ensures r.Failure? <==> Next(lx, t) && Advance(lx).Failure?
    ensures r.Success? ==> r.value.1.source == lx.source
    ensures r.Success? && r.value.0 && t != EOF ==> Remaining(r.value.1) < Remaining(lx)
    ensures r.Success? && r.value.0 ==> Advance(lx) == Success(r.value.1)
  {
    if Next(lx, t) then
      var lx' :- Advance(lx);
      Success((true, lx'))
    else Success((false, lx))
  }

  /** Consumes the current token whatever it is and says whether it had
      type `t`. */
  function Skip(lx: Lexer, t: TokenType): (r: Result<(bool, Lexer), LexError>)
    ensures r.Success? ==> r.value.0 == Next(lx, t)
    ensures r.Success? ==> r.value.1.source == lx.source
    ensures r.Success? ==> Remaining(r.value.1) <= Remaining(lx)
    ensures r.Success? && lx.token.kind != EOF ==> Remaining(r.value.1) < Remaining(lx)
    ensures r.Failure? <==> Advance(lx).Failure?
    ensures r.Success? ==> Advance(lx) == Success(r.value.1)
  {
    var lx' :- Advance(lx);
    Success((Next(lx, t), lx'))
  }

  /** The whole token stream from position `i`: every token up to and
      including the single EOF at the end. */
  function TokensFrom(src: string, i: nat): (r: Result<seq<Token>, LexError>)
    requires i <= |src|
    ensures r.Success? ==> |r.value| > 0 && r.value[|r.value| - 1] == EndToken
    ensures r.Success? ==> forall k :: 0 <= k < |r.value| - 1 ==> r.value[k].kind != EOF
    ensures r.Success? ==> NextToken(src, i).Success? && r.value[0] == NextToken(src, i).value.0
    decreases |src| - i
  {
    var (tok, j) :- NextToken(src, i);
    if tok.kind == EOF then Success([tok])
    else
      assert j > i;
      var rest :- TokensFrom(src, j);
      var all := [tok] + rest;
      assert all[1..] == rest;
      Success(all)
  }

  /** The token stream of a whole source text. */
  function Tokenize(src: string): Result<seq<Token>, LexError> {
    TokensFrom(src, 0)
  }

  /** The token stream is what the parser's cursor passes over: from the
      lexer at `i`, advancing reads every token before EOF in order and
      stops on the EOF lexer at the end of the input. */
  lemma {:induction false} TokensFromReads(src: string, i: nat, toks: seq<Token>)
    requires i <= |src| && TokensFrom(src, i) == Success(toks)
    ensures At(src, i).Success? && At(src, |src|).Success?
    ensures Reads(At(src, i).value, toks[..|toks| - 1], At(src, |src|).value)
    decreases |src| - i
  {
    var (tok, j) := NextToken(src, i).value;
    if tok.kind == EOF {
      assert toks[..|toks| - 1] == [];
    } else {
      var rest := TokensFrom(src, j).value;
      TokensFromReads(src, j, rest);
      assert toks == [tok] + rest;
      assert toks[..|toks| - 1][1..] == rest[..|rest| - 1];
    }
  }

  /** The same for a whole source text: the lexer the parser starts with
      reads the token stream up to its EOF. */
  lemma TokenizeReads(src: string, toks: seq<Token>)
    requires Tokenize(src) == Success(toks)
    ensures Start(src).Success? && At(src, |src|).Success?
    ensures Reads(Start(src).value, toks[..|toks| - 1], At(src, |src|).value)
  {
    TokensFromReads(src, 0, toks);
  }

  /** Advancing `n` times from `lx`. */
  function Walk(lx: Lexer, n: nat): Result<Lexer, LexError>
    decreases n
  {
    if n == 0 then Success(lx)
    else
      var lx' :- Advance(lx);
      Walk(lx', n - 1)
  }

  /** Starting from `lx`, the lexer stands on the tokens `toks` one after
      another and then on `after`. */
  predicate Reads(lx: Lexer, toks: seq<Token>, after: Lexer)
    decreases |toks|
  {
    if |toks| == 0 then lx == after
    else lx.token == toks[0] && Advance(lx).Success? && Reads(Advance(lx).value, toks[1..], after)
  }

  /** Reading one stretch of tokens and then another reads both. */
  lemma {:induction false} ReadsAppend(lx: Lexer, a: seq<Token>, mid: Lexer, b: seq<Token>, after: Lexer)
    requires Reads(lx, a, mid) && Reads(mid, b, after)
    ensures Reads(lx, a + b, after)
    decreases |a|
  {
    if |a| == 0 {
      assert a + b == b;
    } else {
      var next := Advance(lx).value;
      ReadsAppend(next, a[1..], mid, b, after);
      TailAppend(a, b);
    }
  }

  /** The head and tail of a concatenation whose first part is not empty. */
  lemma TailAppend<T>(a: seq<T>, b: seq<T>)
    requires |a| > 0
    ensures (a + b)[0] == a[0] && (a + b)[1..] == a[1..] + b
  {
  }

  /** A stretch of tokens splits where its first part ends: after `|a|`
      steps. */
  lemma {:induction false} ReadsSplit(lx: Lexer, a: seq<Token>, b: seq<Token>, after: Lexer)
    requires Reads(lx, a + b, after)
    ensures Walk(lx, |a|).Success?
    ensures Reads(lx, a, Walk(lx, |a|).value) && Reads(Walk(lx, |a|).value, b, after)
    decreases |a|
  {
    if |a| == 0 {
      assert a + b == b;
    } else {
      var next := Advance(lx).value;
      TailAppend(a, b);
      ReadsSplit(next, a[1..], b, after);
      WalkStep(lx, |a|);
    }
  }

  /** Walking a positive number of steps is one step and then the rest. */
  lemma WalkStep(lx: Lexer, n: nat)
    requires n > 0 && Advance(lx).Success?
    ensures Walk(lx, n) == Walk(Advance(lx).value, n - 1)
  {
  }

  // ---------------------------------------------------------------------
  // Scanning laws

  /** A letter run stops exactly where the letters stop. */
  lemma {:induction false} LetterRunExact(src: string, i: nat, e: nat)
    requires i <= e <= |src|
    requires forall k :: i <= k < e ==> IsLetter(src[k])
    requires e == |src| || !IsLetter(src[e])
    ensures LetterRun(src, i) == e - i
    decreases e - i
  {
    if i < e {
      LetterRunExact(src, i + 1, e);
    }
  }

  /** An identifier followed by a non-letter (or the end of input) is
      scanned as exactly that identifier. */
  lemma ScanIdentifier(src: string, i: nat, x: string)
    requires IsIdentifier(x) && i + |x| <= |src| && src[i..i + |x|] == x
    requires i + |x| == |src| || !IsLetter(src[i + |x|])
    ensures NextToken(src, i) == Success((Token(LCID, x), i + |x|))
  {
    assert src[i] == x[0];
    forall k | i + 1 <= k < i + |x| ensures IsLetter(src[k]) {
      assert src[k] == x[k - i];
    }
    LetterRunExact(src, i + 1, i + |x|);
  }

  /** A punctuation character is scanned as its own token. */
  lemma ScanPunctuation(src: string, i: nat, t: TokenType)
    requires t in {LPAREN, RPAREN, LAMBDA, DOT}
    requires i < |src| && src[i] == Spelling(t)[0]
    ensures NextToken(src, i) == Success((Token(t, Spelling(t)), i + 1))
  {
  }

  /** White space before a token makes no difference. */
  lemma ScanWhitespace(src: string, i: nat)
    requires i < |src| && IsWhitespace(src[i])
    ensures NextToken(src, i) == NextToken(src, i + 1)
  {
  }

  /** A punctuation character puts the lexer on its token, one
      character on. */
  lemma AtPunctuation(src: string, i: nat, t: TokenType)
    requires t in {LPAREN, RPAREN, LAMBDA, DOT}
    requires i < |src| && src[i] == Spelling(t)[0]
    ensures At(src, i) == Success(LexerState(src, i + 1, Token(t, Spelling(t))))
  {
    ScanPunctuation(src, i, t);
  }

  /** An identifier followed by a non-letter puts the lexer on it. */
  lemma AtIdentifier(src: string, i: nat, x: string)
    requires IsIdentifier(x) && i + |x| <= |src| && src[i..i + |x|] == x
    requires i + |x| == |src| || !IsLetter(src[i + |x|])
    ensures At(src, i) == Success(LexerState(src, i + |x|, Token(LCID, x)))
  {
    ScanIdentifier(src, i, x);
  }

  /** A white-space character does not change the token the lexer
      stands on. */
  lemma AtWhitespace(src: string, i: nat)
    requires i < |src| && IsWhitespace(src[i])
    ensures At(src, i) == At(src, i + 1)
  {
    ScanWhitespace(src, i);
  }

  /** Requesting a token at the end of input yields EOF without moving:
      repeated requests stay at the end of the stream. */
  lemma ScanAtEnd(src: string)
    ensures NextToken(src, |src|) == Success((EndToken, |src|))
    ensures At(src, |src|).Success? && Advance(At(src, |src|).value) == At(src, |src|)
  {
  }
}

=== FILE: parser.dfy ===
/** The recursive-descent parser. It resolves every identifier to a de
    Bruijn index while it parses, using the names of the enclosing binders
    listed innermost first.

      term        ::= LAMBDA LCID DOT term | application
      application ::= atom atom*            (folded to the left)
      atom        ::= LPAREN term RPAREN | LCID
*/
module Parser {
  import opened Wrappers
  import opened Ast
  import opened Lexer

  datatype ParseError =
    | LexFailure(error: LexError)
    /** The current token is not one the grammar allows here. */
    | UnexpectedToken(expected: seq<TokenType>, actual: Token)
    /** An identifier with no enclosing binder of that name. */
    | UnboundVariable(name: string)

  /** A parsed term and the lexer positioned after it. */
  datatype Parsed = Parsed(term: Term, rest: Lexer)

  /** Position of the innermost binder named `x` in `ctx`. */
  function IndexOf(ctx: seq<string>, x: string): (r: Option<nat>)
    ensures r.None? <==> x !in ctx
    ensures r.Some? ==> r.value < |ctx| && ctx[r.value] == x
    ensures r.Some? ==> forall k :: 0 <= k < r.value ==> ctx[k] != x
  {
    if |ctx| == 0 then None
    else if ctx[0] == x then Some(0)
    else
      match IndexOf(ctx[1..], x)
      case None => None
      case Some(k) => Some(k + 1)
  }

  /** Every identifier of `t` carries the index of the innermost binder of
      its name, with `ctx` naming the binders around `t` innermost first,
      and every name is a lexical identifier: exactly the terms the parser
      can produce. */
  predicate WellNamed(t: Term, ctx: seq<string>) {
    match t
    case Identifier(x, i) => IsIdentifier(x) && IndexOf(ctx, x) == Some(i)
    case Abstraction(x, b) => IsIdentifier(x) && WellNamed(b, [x] + ctx)
    case Application(f, a) => WellNamed(f, ctx) && WellNamed(a, ctx)
  }

  /** A well-named term is well-scoped: every index is below the number of
      binders around it. */
  lemma {:induction false} WellNamedScoped(t: Term, ctx: seq<string>)
    requires WellNamed(t, ctx)
    ensures Scoped(t, |ctx|)
  {
    match t
    case Identifier(_, _) =>
    case Abstraction(x, b) => WellNamedScoped(b, [x] + ctx);
    case Application(f, a) => WellNamedScoped(f, ctx); WellNamedScoped(a, ctx);
  }

  function Lift<T>(r: Result<T, LexError>): (r': Result<T, ParseError>)
    ensures r.Success? <==> r'.Success?
    ensures r.Success? ==> r'.value == r.value
  {
    match r
    case Success(v) => Success(v)
    case Failure(e) => Failure(LexFailure(e))
  }

  /** term ::= LAMBDA LCID DOT term | application. The parameter is bound
      for the body only. */
  function ParseTerm(lx: Lexer, ctx: seq<string>): (r: Result<Parsed, ParseError>)
    ensures r.Success? ==> r.value.rest.source == lx.source
    ensures r.Success? ==> Remaining(r.value.rest) < Remaining(lx)
    ensures r.Success? ==> WellNamed(r.value.term, ctx)
    ensures r.Success? && Next(lx, LAMBDA) ==> r.value.term.Abstraction?
    decreases Remaining(lx), 3
  {
    var (isLambda, lx1) :- Lift(Match(lx, LAMBDA));
    if isLambda then
      var param := lx1.token.value;
      var (isName, lx2) :- Lift(Skip(lx1, LCID));
      if !isName then Failure(UnexpectedToken([LCID], lx1.token))
      else
        var (isDot, lx3) :- Lift(Match(lx2, DOT));
        if !isDot then Failure(UnexpectedToken([DOT], lx2.token))
        else
          var body :- ParseTerm(lx3, [param] + ctx);
          Success(Parsed(Abstraction(param, body.term), body.rest))
    else
      ParseApplication(lx1, ctx)
  }

  /** application ::= atom atom*: at least one atom. */
  function ParseApplication(lx: Lexer, ctx: seq<string>): (r: Result<Parsed, ParseError>)
    ensures r.Success? ==> r.value.rest.source == lx.source
    ensures r.Success? ==> Remaining(r.value.rest) < Remaining(lx)
    ensures r.Success? ==> WellNamed(r.value.term, ctx)
    ensures !Next(lx, LPAREN) && !Next(lx, LCID) ==> r == Failure(UnexpectedToken([LPAREN, LCID], lx.token))
    decreases Remaining(lx), 2
  {
    var first :- ParseAtom(lx, ctx);
    if first.None? then Failure(UnexpectedToken([LPAREN, LCID], lx.token))
    else ParseApplicationTail(first.value.term, first.value.rest, ctx)
  }

  /** Folds further atoms onto `lhs` to the left until the next token
      cannot start an atom. */
  function ParseApplicationTail(lhs: Term, lx: Lexer, ctx: seq<string>): (r: Result<Parsed, ParseError>)
    ensures r.Success? ==> r.value.rest.source == lx.source
    ensures r.Success? ==> Remaining(r.value.rest) <= Remaining(lx)
    ensures r.Success? && WellNamed(lhs, ctx) ==> WellNamed(r.value.term, ctx)
    ensures !Next(lx, LPAREN) && !Next(lx, LCID) ==> r == Success(Parsed(lhs, lx))
    decreases Remaining(lx), 1
  {
    var next :- ParseAtom(lx, ctx);
    if next.None? then Success(Parsed(lhs, lx))
    else ParseApplicationTail(Application(lhs, next.value.term), next.value.rest, ctx)
  }

  /** atom ::= LPAREN term RPAREN | LCID. Yields nothing, consuming
      nothing, when the current token cannot start an atom. */
  function ParseAtom(lx: Lexer, ctx: seq<string>): (r: Result<Option<Parsed>, ParseError>)
    ensures r.Success? && r.value.Some? ==> r.value.value.rest.source == lx.source
    ensures r.Success? && r.value.Some? ==> Remaining(r.value.value.rest) < Remaining(lx)
    ensures r.Success? && r.value.Some? ==> WellNamed(r.value.value.term, ctx)
    ensures r == Success(None) <==> !Next(lx, LPAREN) && !Next(lx, LCID)
    ensures Next(lx, LCID) && lx.token.value !in ctx ==> r == Failure(UnboundVariable(lx.token.value))
    decreases Remaining(lx), 0
  {
    var (isParen, lx1) :- Lift(Match(lx, LPAREN));
    if isParen then
      var inner :- ParseTerm(lx1, ctx);
      var (isClosed, lx2) :- Lift(Match(inner.rest, RPAREN));
      if !isClosed then Failure(UnexpectedToken([RPAREN], inner.rest.token))
      else Success(Some(Parsed(inner.term, lx2)))
    else if Next(lx, LCID) then
      var name := lx.token.value;
      match IndexOf(ctx, name)
      case None => Failure(UnboundVariable(name))
      case Some(i) =>
        var (_, lx2) :- Lift(Skip(lx, LCID));
        Success(Some(Parsed(Identifier(name, i), lx2)))
    else
      Success(None)
  }

  /** Parses a whole source text: one term, then the end of input. The
      result is closed and every identifier names its innermost binder. */
  function Parse(source: string): (r: Result<Term, ParseError>)
    ensures r.Success? ==> WellNamed(r.value, []) && Scoped(r.value, 0)
  {
    var lx :- Lift(Start(source));
    var p :- ParseTerm(lx, []);
    if !Next(p.rest, EOF) then Failure(UnexpectedToken([EOF], p.rest.token))
    else
      WellNamedScoped(p.term, []);
      Success(p.term)
  }

  // ---------------------------------------------------------------------
  // Laws of the grammar, one per production

  /** A leading LAMBDA consumes the parameter identifier and the DOT,
      binds the parameter for the body, and yields an abstraction. */
  lemma TermLambda(lx: Lexer, ctx: seq<string>, lx1: Lexer, lx2: Lexer, lx3: Lexer, body: Parsed)
    requires Next(lx, LAMBDA) && Advance(lx) == Success(lx1)
    requires Next(lx1, LCID) && Advance(lx1) == Success(lx2)
    requires Next(lx2, DOT) && Advance(lx2) == Success(lx3)
    requires ParseTerm(lx3, [lx1.token.value] + ctx) == Success(body)
    ensures ParseTerm(lx, ctx) == Success(Parsed(Abstraction(lx1.token.value, body.term), body.rest))
  {
  }

  /** A parenthesised term is an atom; the matching RPAREN closes it. */
  lemma AtomParenthesised(lx: Lexer, ctx: seq<string>, lx1: Lexer, inner: Parsed, after: Lexer)
    requires Next(lx, LPAREN) && Advance(lx) == Success(lx1)
    requires ParseTerm(lx1, ctx) == Success(inner)
    requires Next(inner.rest, RPAREN) && Advance(inner.rest) == Success(after)
    ensures ParseAtom(lx, ctx) == Success(Some(Parsed(inner.term, after)))
  {
  }

  /** An identifier is an atom carrying the position of its innermost
      binder. */
  lemma AtomIdentifier(lx: Lexer, ctx: seq<string>, k: nat, after: Lexer)
    requires Next(lx, LCID) && IndexOf(ctx, lx.token.value) == Some(k)
    requires Advance(lx) == Success(after)
    ensures ParseAtom(lx, ctx) == Success(Some(Parsed(Identifier(lx.token.value, k), after)))
  {
  }

  /** Each further atom becomes the right side of an application whose
      left side is everything parsed so far. */
  lemma TailStep(lhs: Term, lx: Lexer, ctx: seq<string>, p: Parsed)
    requires ParseAtom(lx, ctx) == Success(Some(p))
    ensures ParseApplicationTail(lhs, lx, ctx) == ParseApplicationTail(Application(lhs, p.term), p.rest, ctx)
  {
  }

  /** A term that is not an abstraction starts with an atom and continues
      with the tail of the application. */
  lemma TermApplication(lx: Lexer, ctx: seq<string>, p: Parsed)
    requires ParseAtom(lx, ctx) == Success(Some(p))
    ensures ParseTerm(lx, ctx) == ParseApplicationTail(p.term, p.rest, ctx)
  {
    assert Next(lx, LPAREN) || Next(lx, LCID);
  }

  /** Juxtaposed atoms fold to the left: `a b c` is `((a b) c)`. */
  lemma ApplicationFoldsLeft(lx: Lexer, ctx: seq<string>, p: Parsed, q: Parsed, s: Parsed)
    requires ParseAtom(lx, ctx) == Success(Some(p))
    requires ParseAtom(p.rest, ctx) == Success(Some(q))
    requires ParseAtom(q.rest, ctx) == Success(Some(s))
    requires !Next(s.rest, LPAREN) && !Next(s.rest, LCID)
    ensures ParseTerm(lx, ctx) == Success(Parsed(Application(Application(p.term, q.term), s.term), s.rest))
  {
    TermApplication(lx, ctx, p);
    TailStep(p.term, p.rest, ctx, q);
    TailStep(Application(p.term, q.term), q.rest, ctx, s);
  }
}

=== FILE: printer.dfy ===
/** The canonical de Bruijn printer, and a reader for the printed form
    that shows the printer loses nothing but the display names. */
module Printer {
  import opened Wrappers
  import opened Ast

  predicate IsDigit(c: char) { '0' <= c <= '9' }

  predicate AllDigits(s: string) {
    forall k :: 0 <= k < |s| ==> IsDigit(s[k])
  }

  function DigitChar(d: nat): (c: char)
    requires d < 10
    ensures IsDigit(c)
  {
    ('0' as int + d) as char
  }

  function DigitValue(c: char): (d: nat)
    requires IsDigit(c)
    ensures d < 10 && DigitChar(d) == c
  {
    c as int - '0' as int
  }

  /** The decimal numeral of `n`, most significant digit first. */
  function NatToString(n: nat): (s: string)
    ensures |s| > 0 && AllDigits(s)
    decreases n
  {
    if n < 10 then [DigitChar(n)] else NatToString(n / 10) + [DigitChar(n % 10)]
  }

  /** The value of a decimal numeral. */
  function DigitsValue(s: string): nat
    requires AllDigits(s)
    decreases |s|
  {
    if |s| == 0 then 0 else DigitsValue(s[..|s| - 1]) * 10 + DigitValue(s[|s| - 1])
  }

  /** The decimal form of an int, with a leading minus sign when negative. */
  function IntToString(i: int): string {
    if i < 0 then "-" + NatToString(-i) else NatToString(i)
  }

  /** The canonical form: an identifier prints as its index, an
      abstraction as `\.` followed by its body, an application as its two
      sides separated by a space inside parentheses. Names never appear. */
  function Print(t: Term): (s: string)
    ensures |s| > 0 && (IsDigit(s[0]) || s[0] in {'-', '\\', '('})
  {
    match t
    case Identifier(_, i) => IntToString(i)
    case Abstraction(_, b) => "\\." + Print(b)
    case Application(f, a) => "(" + Print(f) + " " + Print(a) + ")"
  }

  // ---------------------------------------------------------------------
  // Reading the printed form back

  /** The number of digits starting at `i`. */
  function DigitRun(s: string, i: nat): (n: nat)
    requires i <= |s|
    ensures i + n <= |s| && AllDigits(s[i..i + n])
    ensures i + n == |s| || !IsDigit(s[i + n])
    decreases |s| - i
  {
    if i == |s| || !IsDigit(s[i]) then 0
    else
      var n := 1 + DigitRun(s, i + 1);
      SliceDigits(s, i, i + n);
      n
  }

  lemma SliceDigits(s: string, i: nat, j: nat)
    requires i < j <= |s|
    requires IsDigit(s[i]) && (j > i + 1 ==> AllDigits(s[i + 1..j]))
    ensures AllDigits(s[i..j])
  {
    forall k | 0 <= k < j - i ensures IsDigit(s[i..j][k]) {
      if k > 0 {
        assert s[i..j][k] == s[i + 1..j][k - 1];
      }
    }
  }

  /** Reads one canonical term from the front of `s` and returns it with
      the unread rest; the names of the result are empty. */
  function Read(s: string): (r: Option<(Term, string)>)
    ensures r.Some? ==> |r.value.1| < |s|
    decreases |s|
  {
    if |s| == 0 then None
    else if s[0] == '\\' then
      if |s| < 2 || s[1] != '.' then None
      else
        match Read(s[2..])
        case None => None
        case Some((b, rest)) => Some((Abstraction("", b), rest))
    else if s[0] == '(' then
      match Read(s[1..])
      case None => None
      case Some((f, rest1)) =>
        if |rest1| == 0 || rest1[0] != ' ' then None
        else
          match Read(rest1[1..])
          case None => None
          case Some((a, rest2)) =>
            if |rest2| == 0 || rest2[0] != ')' then None
            else Some((Application(f, a), rest2[1..]))
    else
      match ReadIndex(s)
      case None => None
      case Some((i, rest)) => Some((Identifier("", i), rest))
  }

  /** Reads an optionally negative decimal numeral from the front of `s`. */
  function ReadIndex(s: string): (r: Option<(int, string)>)
    ensures r.Some? ==> |r.value.1| < |s|
  {
    if |s| > 0 && s[0] == '-' then
      var n := DigitRun(s, 1);
      if n == 0 then None else Some((-(DigitsValue(s[1..1 + n]) as int), s[1 + n..]))
    else
      var n := DigitRun(s, 0);
      if n == 0 then None else Some((DigitsValue(s[..n]) as int, s[n..]))
  }

  /** Reading a numeral gives back its number. */
  lemma {:induction false} NatToStringValue(n: nat)
    ensures DigitsValue(NatToString(n)) == n
    decreases n
  {
    var s := NatToString(n);
    if n >= 10 {
      assert s[..|s| - 1] == NatToString(n / 10);
      NatToStringValue(n / 10);
    }
  }

  /** A digit run stops exactly where the digits stop. */
  lemma {:induction false} DigitRunExact(s: string, i: nat, e: nat)
    requires i <= e <= |s|
    requires forall k :: i <= k < e ==> IsDigit(s[k])
    requires e == |s| || !IsDigit(s[e])
    ensures DigitRun(s, i) == e - i
    decreases e - i
  {
    if i < e {
      DigitRunExact(s, i + 1, e);
    }
  }

  /** A numeral followed by a non-digit is read as exactly that number. */
  lemma ReadNumeral(n: nat, rest: string, prefix: string)
    requires |rest| == 0 || !IsDigit(rest[0])
    ensures var s := prefix + NatToString(n) + rest;
            && DigitRun(s, |prefix|) == |NatToString(n)|
            && s[|prefix|..|prefix| + |NatToString(n)|] == NatToString(n)
            && s[|prefix| + |NatToString(n)|..] == rest
            && DigitsValue(NatToString(n)) == n
  {
    var s := prefix + NatToString(n) + rest;
    var e := |prefix| + |NatToString(n)|;
    assert forall k :: |prefix| <= k < e ==> s[k] == NatToString(n)[k - |prefix|];
    assert e < |s| ==> s[e] == rest[0];
    DigitRunExact(s, |prefix|, e);
    NatToStringValue(n);
  }

  /** The reader inverts the printer: reading a printed term, followed by
      anything that does not continue a numeral, gives back the term with
      its names erased and leaves the rest unread. */
  lemma {:induction false} ReadPrint(t: Term, rest: string)
    requires |rest| == 0 || !IsDigit(rest[0])
    ensures Read(Print(t) + rest) == Some((Erase(t), rest))
  {
    match t
    case Identifier(x, i) => ReadPrintIdentifier(x, i, rest);
    case Abstraction(x, b) =>
      ReadPrint(b, rest);
      ReadPrintAbstraction(x, b, rest);
    case Application(f, a) =>
      ReadPrint(f, " " + Print(a) + ")" + rest);
      ReadPrint(a, ")" + rest);
      ReadPrintApplication(f, a, rest);
  }

  lemma ReadPrintIdentifier(x: string, i: int, rest: string)
    requires |rest| == 0 || !IsDigit(rest[0])
    ensures Read(Print(Identifier(x, i)) + rest) == Some((Identifier("", i), rest))
  {
    var s := Print(Identifier(x, i)) + rest;
    ReadIntToString(i, rest);
    assert s[0] == IntToString(i)[0];
  }

  /** Reading a printed index gives it back. */
  lemma ReadIntToString(i: int, rest: string)
    requires |rest| == 0 || !IsDigit(rest[0])
    ensures ReadIndex(IntToString(i) + rest) == Some((i, rest))
  {
    if i < 0 {
      ReadNegative(-i, rest);
    } else {
      ReadNonNegative(i, rest);
    }
  }

  /** A printed negative index is a minus sign and its magnitude. */
  lemma ReadNegative(n: nat, rest: string)
    requires n > 0 && (|rest| == 0 || !IsDigit(rest[0]))
    ensures ReadIndex("-" + NatToString(n) + rest) == Some((-(n as int), rest))
  {
    ReadNumeral(n, rest, "-");
  }

  /** A printed non-negative index is its digits alone. */
  lemma ReadNonNegative(n: nat, rest: string)
    requires |rest| == 0 || !IsDigit(rest[0])
    ensures ReadIndex(NatToString(n) + rest) == Some((n as int, rest))
  {
    var s := NatToString(n) + rest;
    ReadNumeral(n, rest, "");
    assert s == "" + NatToString(n) + rest;
    assert s[0] == NatToString(n)[0];
  }


  lemma ReadPrintAbstraction(x: string, b: Term, rest: string)
    requires Read(Print(b) + rest) == Some((Erase(b), rest))
    ensures Read(Print(Abstraction(x, b)) + rest) == Some((Abstraction("", Erase(b)), rest))
  {
    var s := Print(Abstraction(x, b)) + rest;
    AbstractionText(x, b, rest);
    ReadAbstractionStep(s, Erase(b), rest);
  }

  /** A printed abstraction is `\.` followed by its printed body. */
  lemma AbstractionText(x: string, b: Term, rest: string)
    ensures var s := Print(Abstraction(x, b)) + rest;
            |s| >= 2 && s[0] == '\\' && s[1] == '.' && s[2..] == Print(b) + rest
  {
    var s := Print(Abstraction(x, b)) + rest;
    assert s == "\\." + (Print(b) + rest);
  }

  lemma ReadAbstractionStep(s: string, b: Term, rest: string)
    requires |s| >= 2 && s[0] == '\\' && s[1] == '.'
    requires Read(s[2..]) == Some((b, rest))
    ensures Read(s) == Some((Abstraction("", b), rest))
  {
  }

  lemma ReadPrintApplication(f: Term, a: Term, rest: string)
    requires Read(Print(f) + (" " + Print(a) + ")" + rest)) == Some((Erase(f), " " + Print(a) + ")" + rest))
    requires Read(Print(a) + (")" + rest)) == Some((Erase(a), ")" + rest))
    ensures Read(Print(Application(f, a)) + rest) == Some((Application(Erase(f), Erase(a)), rest))
  {
    var pf, pa := Print(f), Print(a);
    var s := Print(Application(f, a)) + rest;
    ApplicationSlices(pf, pa, rest);
    assert s == "(" + pf + " " + pa + ")" + rest;
    ReadApplicationStep(s, Erase(f), " " + pa + ")" + rest, Erase(a), ")" + rest);
  }

  lemma ApplicationSlices(pf: string, pa: string, rest: string)
    ensures var s := "(" + pf + " " + pa + ")" + rest;
            var rest1 := " " + pa + ")" + rest;
            && s[0] == '(' && s[1..] == pf + rest1
            && rest1[0] == ' ' && rest1[1..] == pa + (")" + rest)
            && (")" + rest)[0] == ')' && (")" + rest)[1..] == rest
  {
  }

  lemma ReadApplicationStep(s: string, f: Term, rest1: string, a: Term, rest2: string)
    requires |s| >= 1 && s[0] == '('
    requires Read(s[1..]) == Some((f, rest1))
    requires |rest1| >= 1 && rest1[0] == ' ' && Read(rest1[1..]) == Some((a, rest2))
    requires |rest2| >= 1 && rest2[0] == ')'
    ensures Read(s) == Some((Application(f, a), rest2[1..]))
  {
  }

  /** Display names never reach the printed form. */
  lemma {:induction false} PrintIgnoresNames(t: Term)
    ensures Print(Erase(t)) == Print(t)
  {
    match t
    case Identifier(_, _) =>
    case Abstraction(_, b) => PrintIgnoresNames(b);
    case Application(f, a) => PrintIgnoresNames(f); PrintIgnoresNames(a);
  }

  /** Two terms print alike exactly when they differ at most in their
      display names. */
  lemma PrintSameIffErasedSame(t: Term, u: Term)
    ensures Print(t) == Print(u) <==> Erase(t) == Erase(u)
  {
    PrintIgnoresNames(t);
    PrintIgnoresNames(u);
    if Print(t) == Print(u) {
      ReadPrint(t, "");
      ReadPrint(u, "");
      assert Print(t) + "" == Print(u) + "";
    }
  }

  /** An identifier prints as the numeral of its index and nothing else. */
  lemma PrintIdentifier(x: string, i: nat)
    ensures AllDigits(Print(Identifier(x, i)))
    ensures DigitsValue(Print(Identifier(x, i))) == i
  {
    NatToStringValue(i);
  }
}

=== FILE: roundtrip.dfy ===
/** A named, fully parenthesised printer and the proof that the parser
    reads its output back to the same term: parsing inverts printing on
    every term the parser can produce. */
module RoundTrip {
  import opened Wrappers
  import opened Ast
  import opened Lexer
  import opened Parser

  /** Prints `t` with its names: every abstraction and every application
      in parentheses, so each printed term is a single atom. */
  function Show(t: Term): (s: string)
    ensures |s| > 0
  {
    match t
    case Identifier(x, _) => if |x| == 0 then "?" else x
    case Abstraction(x, b) => "(\\" + x + "." + Show(b) + ")"
    case Application(f, a) => "(" + Show(f) + " " + Show(a) + ")"
  }

  /** The tokens of `Show(t)`, in order. */
  function Tokens(t: Term): (r: seq<Token>)
    ensures |r| > 0
  {
    match t
    case Identifier(x, _) => [Token(LCID, x)]
    case Abstraction(x, b) =>
      [Token(LPAREN, "("), Token(LAMBDA, "\\"), Token(LCID, x), Token(DOT, ".")] + Tokens(b) + [Token(RPAREN, ")")]
    case Application(f, a) => [Token(LPAREN, "(")] + Tokens(f) + Tokens(a) + [Token(RPAREN, ")")]
  }

  /** `src` holds `text` at position `i`. */
  predicate HoldsAt(src: string, i: nat, text: string) {
    i + |text| <= |src| && src[i..i + |text|] == text
  }

  /** Every name in `t`, bound or free, is a lexical identifier. */
  predicate Named(t: Term) {
    match t
    case Identifier(x, _) => IsIdentifier(x)
    case Abstraction(x, b) => IsIdentifier(x) && Named(b)
    case Application(f, a) => Named(f) && Named(a)
  }

  /** The terms the parser produces have identifiers for names. */
  lemma {:induction false} WellNamedNamed(t: Term, ctx: seq<string>)
    requires WellNamed(t, ctx)
    ensures Named(t)
  {
    match t
    case Identifier(_, _) =>
    case Abstraction(x, b) => WellNamedNamed(b, [x] + ctx);
    case Application(f, a) => WellNamedNamed(f, ctx); WellNamedNamed(a, ctx);
  }

  /** The punctuation around an abstraction `(\x.body)` spelt out from
      `i`, whose closing parenthesis is at `r`. */
  predicate LambdaFrame(src: string, i: nat, x: string, r: nat) {
    && i + 2 + |x| < r < |src|
    && src[i] == '(' && src[i + 1] == '\\' && HoldsAt(src, i + 2, x) && src[i + 2 + |x|] == '.'
    && src[r] == ')'
  }

  /** The punctuation around an application `(f a)` spelt out from `i`,
      with the space at `m` and the closing parenthesis at `r`. */
  predicate PairFrame(src: string, i: nat, m: nat, r: nat) {
    i < m < r < |src| && src[i] == '(' && src[m] == ' ' && src[r] == ')'
  }

  /** `src` spells out `t` from position `i`, piece by piece: the
      characters a printed term consists of, each at its place. */
  predicate ShownAt(src: string, i: nat, t: Term)
    decreases t
  {
    i + |Show(t)| <= |src| &&
    match t
    case Identifier(x, _) => HoldsAt(src, i, x)
    case Abstraction(x, b) =>
      LambdaFrame(src, i, x, i + 3 + |x| + |Show(b)|) && ShownAt(src, i + 3 + |x|, b)
    case Application(f, a) =>
      var m := i + 1 + |Show(f)|;
      PairFrame(src, i, m, m + 1 + |Show(a)|) && ShownAt(src, i + 1, f) && ShownAt(src, m + 1, a)
  }

  /** Printing `t` into any surrounding text spells `t` out there. */
  lemma {:induction false} ShownIn(t: Term, pre: string, post: string)
    ensures ShownAt(pre + Show(t) + post, |pre|, t)
    decreases t, 2
  {
    match t
    case Identifier(x, _) =>
      var src := pre + Show(t) + post;
      assert src[|pre|..|pre| + |Show(t)|] == Show(t);
      assert |x| > 0 ==> src[|pre|..|pre| + |x|] == x;
    case Abstraction(x, b) =>
      ShownInLambda(x, b, pre, post);
    case Application(f, a) =>
      ShownInPair(f, a, pre, post);
  }

  /** The abstraction case of `ShownIn`. */
  lemma {:induction false} ShownInLambda(x: string, b: Term, pre: string, post: string)
    ensures ShownAt(pre + Show(Abstraction(x, b)) + post, |pre|, Abstraction(x, b))
    decreases Abstraction(x, b), 1
  {
    var src := pre + Show(Abstraction(x, b)) + post;
    var head := pre + "(\\" + x + ".";
    LambdaText(x, b, pre, post);
    ShownIn(b, head, ")" + post);
    LambdaChars(x, b, pre, post);
  }

  /** Where the body of a printed abstraction lies. */
  lemma LambdaText(x: string, b: Term, pre: string, post: string)
    ensures pre + Show(Abstraction(x, b)) + post == (pre + "(\\" + x + ".") + Show(b) + (")" + post)
  {
  }

  /** The punctuation of a printed abstraction and its name. */
  lemma LambdaChars(x: string, b: Term, pre: string, post: string)
    ensures LambdaFrame(pre + Show(Abstraction(x, b)) + post, |pre|, x, |pre| + 3 + |x| + |Show(b)|)
  {
    var src := pre + Show(Abstraction(x, b)) + post;
    var i := |pre|;
    assert src[i + 2..i + 2 + |x|] == x;
  }

  /** The application case of `ShownIn`. */
  lemma {:induction false} ShownInPair(f: Term, a: Term, pre: string, post: string)
    ensures ShownAt(pre + Show(Application(f, a)) + post, |pre|, Application(f, a))
    decreases Application(f, a), 1
  {
    ShownInFun(f, a, pre, post);
    ShownInArg(f, a, pre, post);
    PairChars(f, a, pre, post);
  }

  /** The function side of a printed application is shown after `(`. */
  lemma {:induction false} ShownInFun(f: Term, a: Term, pre: string, post: string)
    ensures ShownAt(pre + Show(Application(f, a)) + post, |pre| + 1, f)
    decreases Application(f, a), 0
  {
    PairFunText(f, a, pre, post);
    ShownIn(f, pre + "(", " " + Show(a) + ")" + post);
  }

  /** The argument of a printed application is shown after the space. */
  lemma {:induction false} ShownInArg(f: Term, a: Term, pre: string, post: string)
    ensures ShownAt(pre + Show(Application(f, a)) + post, |pre| + 2 + |Show(f)|, a)
    decreases Application(f, a), 0
  {
    PairArgText(f, a, pre, post);
    ShownIn(a, pre + "(" + Show(f) + " ", ")" + post);
  }

  /** Where the function side of a printed application lies. */
  lemma PairFunText(f: Term, a: Term, pre: string, post: string)
    ensures pre + Show(Application(f, a)) + post == (pre + "(") + Show(f) + (" " + Show(a) + ")" + post)
  {
  }

  /** Where the argument of a printed application lies. */
  lemma PairArgText(f: Term, a: Term, pre: string, post: string)
    ensures pre + Show(Application(f, a)) + post == (pre + "(" + Show(f) + " ") + Show(a) + (")" + post)
  {
  }

  /** The punctuation of a printed application. */
  lemma PairChars(f: Term, a: Term, pre: string, post: string)
    ensures var m := |pre| + 1 + |Show(f)|;
            PairFrame(pre + Show(Application(f, a)) + post, |pre|, m, m + 1 + |Show(a)|)
  {
  }

  // ---------------------------------------------------------------------
  // What the parser makes of it

  /** `( \ x . body )` read token by token is one atom. */
  lemma AtomLambda(lx0: Lexer, lx1: Lexer, lx2: Lexer, lx3: Lexer, lxq: Lexer,
                   ctx: seq<string>, body: Parsed, after: Lexer)
    requires Next(lx0, LPAREN) && Advance(lx0) == Success(lx1)
    requires Next(lx1, LAMBDA) && Advance(lx1) == Success(lx2)
    requires Next(lx2, LCID) && Advance(lx2) == Success(lx3)
    requires Next(lx3, DOT) && Advance(lx3) == Success(lxq)
    requires ParseTerm(lxq, [lx2.token.value] + ctx) == Success(body)
    requires Next(body.rest, RPAREN) && Advance(body.rest) == Success(after)
    ensures ParseAtom(lx0, ctx) == Success(Some(Parsed(Abstraction(lx2.token.value, body.term), after)))
  {
    TermLambda(lx1, ctx, lx2, lx3, lxq, body);
    AtomParenthesised(lx0, ctx, lx1, Parsed(Abstraction(lx2.token.value, body.term), body.rest), after);
  }

  /** `( f a )` read token by token is one atom. */
  lemma AtomPair(lx0: Lexer, lx1: Lexer, ctx: seq<string>, f: Parsed, a: Parsed, after: Lexer)
    requires Next(lx0, LPAREN) && Advance(lx0) == Success(lx1)
    requires ParseAtom(lx1, ctx) == Success(Some(f))
    requires ParseAtom(f.rest, ctx) == Success(Some(a))
    requires Next(a.rest, RPAREN) && Advance(a.rest) == Success(after)
    ensures ParseAtom(lx0, ctx) == Success(Some(Parsed(Application(f.term, a.term), after)))
  {
    TermApplication(lx1, ctx, f);
    TailStep(f.term, f.rest, ctx, a);
    AtomParenthesised(lx0, ctx, lx1, Parsed(Application(f.term, a.term), a.rest), after);
  }

  // ---------------------------------------------------------------------
  // From characters to tokens

  /** Reading a single token is standing on it and advancing. */
  lemma ReadsSingle(lx: Lexer, tok: Token, after: Lexer)
    ensures Reads(lx, [tok], after) <==> lx.token == tok && Advance(lx) == Success(after)
  {
    assert [tok][1..] == [];
  }

  /** The four tokens that open a shown abstraction, `( \ x .`, read one
      by one. */
  function Head(x: string): seq<Token> {
    [Token(LPAREN, "("), Token(LAMBDA, "\\"), Token(LCID, x), Token(DOT, ".")]
  }

  /** Reading the head of an abstraction is four single steps. */
  lemma HeadSteps(x: string, lx0: Lexer, lxq: Lexer) returns (lx1: Lexer, lx2: Lexer, lx3: Lexer)
    requires Reads(lx0, Head(x), lxq)
    ensures lx0.token == Token(LPAREN, "(") && Advance(lx0) == Success(lx1)
    ensures lx1.token == Token(LAMBDA, "\\") && Advance(lx1) == Success(lx2)
    ensures lx2.token == Token(LCID, x) && Advance(lx2) == Success(lx3)
    ensures lx3.token == Token(DOT, ".") && Advance(lx3) == Success(lxq)
  {
    var h := Head(x);
    lx1 := Advance(lx0).value;
    assert h[1..] == [Token(LAMBDA, "\\"), Token(LCID, x), Token(DOT, ".")];
    assert Reads(lx1, h[1..], lxq);
    lx2 := Advance(lx1).value;
    assert h[1..][1..] == [Token(LCID, x), Token(DOT, ".")];
    assert Reads(lx2, h[1..][1..], lxq);
    lx3 := Advance(lx2).value;
    assert h[1..][1..][1..] == [Token(DOT, ".")];
    assert Reads(lx3, h[1..][1..][1..], lxq);
    ReadsSingle(lx3, Token(DOT, "."), lxq);
  }

  /** The tokens of an abstraction: its head, its body's, and `)`. */
  lemma TokensLambda(x: string, b: Term)
    ensures Tokens(Abstraction(x, b)) == Head(x) + (Tokens(b) + [Token(RPAREN, ")")])
  {
  }

  /** The tokens of an application: `(`, both sides', and `)`. */
  lemma TokensPair(f: Term, a: Term)
    ensures Tokens(Application(f, a)) == [Token(LPAREN, "(")] + (Tokens(f) + (Tokens(a) + [Token(RPAREN, ")")]))
  {
  }

  /** The lexer started at each position `0..n` of `src`, in order. */
  function Trace(src: string, n: nat): (r: seq<Result<Lexer, LexError>>)
    requires n <= |src|
    ensures |r| == n + 1
    decreases n
  {
    if n == 0 then [At(src, 0)] else Trace(src, n - 1) + [At(src, n)]
  }

  /** The table entry for position `k` is the lexer started there. */
  lemma {:induction false} TraceAt(src: string, n: nat, k: nat)
    requires k <= n <= |src|
    ensures Trace(src, n)[k] == At(src, k)
    decreases n
  {
    if k < n {
      TraceAt(src, n - 1, k);
    }
  }

  /** The lexer started at position `i`, looked up in the table. */
  function StateAt(src: string, i: nat): Result<Lexer, LexError>
    requires i <= |src|
  {
    Trace(src, |src|)[i]
  }

  /** Between positions `i` and `e` of `src` the lexer reads exactly
      `toks`, provided it can read on from `e`. */
  predicate LexesAs(src: string, i: nat, toks: seq<Token>, e: nat) {
    i <= e <= |src| &&
    (StateAt(src, e).Success? ==>
       StateAt(src, i).Success? && Reads(StateAt(src, i).value, toks, StateAt(src, e).value))
  }

  /** Two stretches read one after the other read as one. */
  lemma LexesAsAppend(src: string, i: nat, a: seq<Token>, j: nat, b: seq<Token>, k: nat)
    requires LexesAs(src, i, a, j) && LexesAs(src, j, b, k)
    ensures LexesAs(src, i, a + b, k)
  {
    if StateAt(src, k).Success? {
      ReadsAppend(StateAt(src, i).value, a, StateAt(src, j).value, b, StateAt(src, k).value);
    }
  }

  /** A punctuation character is a token of its own. */
  lemma LexesPunctuation(src: string, i: nat, t: TokenType, tok: Token)
    requires t in {LPAREN, RPAREN, LAMBDA, DOT} && tok == Token(t, Spelling(t))
    requires i < |src| && src[i] == Spelling(t)[0]
    ensures LexesAs(src, i, [tok], i + 1)
  {
    AtPunctuation(src, i, t);
    TraceAt(src, |src|, i);
    TraceAt(src, |src|, i + 1);
    if At(src, i + 1).Success? {
      ReadsSingle(At(src, i).value, tok, At(src, i + 1).value);
    }
  }

  /** `(` is the token LPAREN. */
  lemma LexesOpen(src: string, i: nat)
    requires i < |src| && src[i] == '('
    ensures LexesAs(src, i, [Token(LPAREN, "(")], i + 1)
  {
    LexesPunctuation(src, i, LPAREN, Token(LPAREN, "("));
  }

  /** `)` is the token RPAREN. */
  lemma LexesClose(src: string, i: nat)
    requires i < |src| && src[i] == ')'
    ensures LexesAs(src, i, [Token(RPAREN, ")")], i + 1)
  {
    LexesPunctuation(src, i, RPAREN, Token(RPAREN, ")"));
  }

  /** A backslash is the token LAMBDA. */
  lemma LexesLambda(src: string, i: nat)
    requires i < |src| && src[i] == '\\'
    ensures LexesAs(src, i, [Token(LAMBDA, "\\")], i + 1)
  {
    LexesPunctuation(src, i, LAMBDA, Token(LAMBDA, "\\"));
  }

  /** `.` is the token DOT. */
  lemma LexesDot(src: string, i: nat)
    requires i < |src| && src[i] == '.'
    ensures LexesAs(src, i, [Token(DOT, ".")], i + 1)
  {
    LexesPunctuation(src, i, DOT, Token(DOT, "."));
  }

  /** A white-space character reads as nothing. */
  lemma LexesSpace(src: string, i: nat)
    requires i < |src| && IsWhitespace(src[i])
    ensures LexesAs(src, i, [], i + 1)
  {
    AtWhitespace(src, i);
    TraceAt(src, |src|, i);
    TraceAt(src, |src|, i + 1);
  }

  /** The lexer reads a spelt-out term as exactly its tokens. */
  lemma {:induction false} ShowReads(t: Term, src: string, i: nat, e: nat)
    requires e == i + |Show(t)| && Named(t) && ShownAt(src, i, t)
    requires e == |src| || !IsLetter(src[e])
    ensures LexesAs(src, i, Tokens(t), e)
    decreases t, 2
  {
    match t
    case Identifier(x, _) =>
      ShowReadsName(x, src, i, e);
    case Abstraction(x, b) =>
      ShowReadsLambda(x, b, src, i, e);
    case Application(f, a) =>
      ShowReadsPair(f, a, src, i, e);
  }

  /** The identifier case of `ShowReads`. */
  lemma ShowReadsName(x: string, src: string, i: nat, e: nat)
    requires IsIdentifier(x) && e == i + |x| && HoldsAt(src, i, x)
    requires e == |src| || !IsLetter(src[e])
    ensures LexesAs(src, i, [Token(LCID, x)], e)
  {
    AtIdentifier(src, i, x);
    TraceAt(src, |src|, i);
    TraceAt(src, |src|, e);
    if At(src, e).Success? {
      ReadsSingle(At(src, i).value, Token(LCID, x), At(src, e).value);
    }
  }

  /** The abstraction case of `ShowReads`. */
  lemma {:induction false} ShowReadsLambda(x: string, b: Term, src: string, i: nat, e: nat)
    requires e == i + |Show(Abstraction(x, b))| && Named(Abstraction(x, b))
    requires ShownAt(src, i, Abstraction(x, b))
    ensures LexesAs(src, i, Tokens(Abstraction(x, b)), e)
    decreases Abstraction(x, b), 1
  {
    var q := i + 3 + |x|;
    var r := q + |Show(b)|;
    ShowReads(b, src, q, r);
    LambdaReadsAt(x, b, src, i, q, r, e);
  }

  /** The application case of `ShowReads`. */
  lemma {:induction false} ShowReadsPair(f: Term, a: Term, src: string, i: nat, e: nat)
    requires e == i + |Show(Application(f, a))| && Named(Application(f, a))
    requires ShownAt(src, i, Application(f, a))
    ensures LexesAs(src, i, Tokens(Application(f, a)), e)
    decreases Application(f, a), 1
  {
    var m := i + 1 + |Show(f)|;
    var r := m + 1 + |Show(a)|;
    ShowReads(a, src, m + 1, r);
    ShowReadsPairFun(f, a, src, i, m, r, e);
  }

  /** The application case of `ShowReads` once the argument is read. */
  lemma {:induction false} ShowReadsPairFun(f: Term, a: Term, src: string, i: nat, m: nat, r: nat, e: nat)
    requires m == i + 1 + |Show(f)| && Named(f) && ShownAt(src, i + 1, f)
    requires PairFrame(src, i, m, r) && e == r + 1 && LexesAs(src, m + 1, Tokens(a), r)
    ensures LexesAs(src, i, Tokens(Application(f, a)), e)
    decreases Application(f, a), 0
  {
    ShowReads(f, src, i + 1, m);
    PairReadsAt(f, a, src, i, m, r, e);
  }

  /** The lexer reads the head `(\x.` of a spelt-out abstraction. */
  lemma LambdaHeadReads(x: string, src: string, i: nat, r: nat)
    requires IsIdentifier(x) && LambdaFrame(src, i, x, r)
    ensures LexesAs(src, i, Head(x), i + 3 + |x|)
  {
    var p := i + 2 + |x|;
    BinderReads(x, src, i + 2, p);
    OpenLambdaReads(src, i);
    LexesAsAppend(src, i, [Token(LPAREN, "("), Token(LAMBDA, "\\")], i + 2, [Token(LCID, x), Token(DOT, ".")], p + 1);
  }

  /** The lexer reads `(\` as LPAREN LAMBDA. */
  lemma OpenLambdaReads(src: string, i: nat)
    requires i + 1 < |src| && src[i] == '(' && src[i + 1] == '\\'
    ensures LexesAs(src, i, [Token(LPAREN, "("), Token(LAMBDA, "\\")], i + 2)
  {
    LexesOpen(src, i);
    LexesLambda(src, i + 1);
    LexesAsAppend(src, i, [Token(LPAREN, "(")], i + 1, [Token(LAMBDA, "\\")], i + 2);
  }

  /** The lexer reads the binder `x.` as LCID DOT. */
  lemma BinderReads(x: string, src: string, j: nat, p: nat)
    requires IsIdentifier(x) && p == j + |x| && HoldsAt(src, j, x) && p < |src| && src[p] == '.'
    ensures LexesAs(src, j, [Token(LCID, x), Token(DOT, ".")], p + 1)
  {
    ShowReadsName(x, src, j, p);
    LexesDot(src, p);
    LexesAsAppend(src, j, [Token(LCID, x)], p, [Token(DOT, ".")], p + 1);
  }

  /** A spelt-out abstraction reads as its tokens once its body does. */
  lemma LambdaReadsAt(x: string, b: Term, src: string, i: nat, q: nat, r: nat, e: nat)
    requires IsIdentifier(x) && LambdaFrame(src, i, x, r) && q == i + 3 + |x| && e == r + 1
    requires LexesAs(src, q, Tokens(b), r)
    ensures LexesAs(src, i, Tokens(Abstraction(x, b)), e)
  {
    LambdaHeadReads(x, src, i, r);
    LexesClose(src, r);
    LexesAsAppend(src, q, Tokens(b), r, [Token(RPAREN, ")")], e);
    LexesAsAppend(src, i, Head(x), q, Tokens(b) + [Token(RPAREN, ")")], e);
    TokensLambda(x, b);
  }

  /** A spelt-out application reads as its tokens once both sides do. */
  lemma PairReadsAt(f: Term, a: Term, src: string, i: nat, m: nat, r: nat, e: nat)
    requires PairFrame(src, i, m, r) && e == r + 1
    requires LexesAs(src, i + 1, Tokens(f), m) && LexesAs(src, m + 1, Tokens(a), r)
    ensures LexesAs(src, i, Tokens(Application(f, a)), e)
  {
    PairTailReads(a, src, m, r, e);
    LexesAsAppend(src, i + 1, Tokens(f), m, Tokens(a) + [Token(RPAREN, ")")], e);
    LexesOpen(src, i);
    LexesAsAppend(src, i, [Token(LPAREN, "(")], i + 1, Tokens(f) + (Tokens(a) + [Token(RPAREN, ")")]), e);
    TokensPair(f, a);
  }

  /** The tail ` a)` of a spelt-out application reads as the argument's
      tokens and the closing parenthesis. */
  lemma PairTailReads(a: Term, src: string, m: nat, r: nat, e: nat)
    requires m < r < |src| && src[m] == ' ' && src[r] == ')' && e == r + 1
    requires LexesAs(src, m + 1, Tokens(a), r)
    ensures LexesAs(src, m, Tokens(a) + [Token(RPAREN, ")")], e)
  {
    LexesClose(src, r);
    LexesAsAppend(src, m + 1, Tokens(a), r, [Token(RPAREN, ")")], e);
    LexesSpace(src, m);
    LexesAsAppend(src, m, [], m + 1, Tokens(a) + [Token(RPAREN, ")")], e);
    assert [] + (Tokens(a) + [Token(RPAREN, ")")]) == Tokens(a) + [Token(RPAREN, ")")];
  }

  // ---------------------------------------------------------------------
  // From tokens to terms

  /** The parser reads the tokens of a well-named term as one atom. */
  lemma {:induction false} AtomTokens(t: Term, ctx: seq<string>, lx: Lexer, after: Lexer)
    requires WellNamed(t, ctx) && Reads(lx, Tokens(t), after)
    ensures ParseAtom(lx, ctx) == Success(Some(Parsed(t, after)))
    decreases t, 1
  {
    match t
    case Identifier(x, k) =>
      ReadsSingle(lx, Token(LCID, x), after);
      AtomIdentifier(lx, ctx, k, after);
    case Abstraction(x, b) =>
      AtomTokensLambda(x, b, ctx, lx, after);
    case Application(f, a) =>
      AtomTokensPair(f, a, ctx, lx, after);
  }

  /** Splits the tokens of an abstraction into its head, body and
      closing parenthesis. */
  lemma LambdaSplit(x: string, b: Term, lx: Lexer, after: Lexer) returns (lxq: Lexer, lxr: Lexer)
    requires Reads(lx, Tokens(Abstraction(x, b)), after)
    ensures Reads(lx, Head(x), lxq) && Reads(lxq, Tokens(b), lxr) && Reads(lxr, [Token(RPAREN, ")")], after)
  {
    TokensLambda(x, b);
    ReadsSplit(lx, Head(x), Tokens(b) + [Token(RPAREN, ")")], after);
    lxq := Walk(lx, |Head(x)|).value;
    ReadsSplit(lxq, Tokens(b), [Token(RPAREN, ")")], after);
    lxr := Walk(lxq, |Tokens(b)|).value;
  }

  /** Splits the tokens of an application into its parenthesis, both
      sides and the closing parenthesis. */
  lemma PairSplit(f: Term, a: Term, lx: Lexer, after: Lexer) returns (lx1: Lexer, mid: Lexer, lxr: Lexer)
    requires Reads(lx, Tokens(Application(f, a)), after)
    ensures Reads(lx, [Token(LPAREN, "(")], lx1) && Reads(lx1, Tokens(f), mid)
    ensures Reads(mid, Tokens(a), lxr) && Reads(lxr, [Token(RPAREN, ")")], after)
  {
    TokensPair(f, a);
    ReadsSplit(lx, [Token(LPAREN, "(")], Tokens(f) + (Tokens(a) + [Token(RPAREN, ")")]), after);
    lx1 := Walk(lx, 1).value;
    ReadsSplit(lx1, Tokens(f), Tokens(a) + [Token(RPAREN, ")")], after);
    mid := Walk(lx1, |Tokens(f)|).value;
    ReadsSplit(mid, Tokens(a), [Token(RPAREN, ")")], after);
    lxr := Walk(mid, |Tokens(a)|).value;
  }

  /** The abstraction case of `AtomTokens`. */
  lemma {:induction false} AtomTokensLambda(x: string, b: Term, ctx: seq<string>, lx: Lexer, after: Lexer)
    requires WellNamed(Abstraction(x, b), ctx) && Reads(lx, Tokens(Abstraction(x, b)), after)
    ensures ParseAtom(lx, ctx) == Success(Some(Parsed(Abstraction(x, b), after)))
    decreases Abstraction(x, b), 0
  {
    var lxq, lxr := LambdaSplit(x, b, lx, after);
    var lx1, lx2, lx3 := HeadSteps(x, lx, lxq);
    ReadsSingle(lxr, Token(RPAREN, ")"), after);
    TermTokens(b, [x] + ctx, lxq, lxr);
    AtomLambda(lx, lx1, lx2, lx3, lxq, ctx, Parsed(b, lxr), after);
  }

  /** The application case of `AtomTokens`. */
  lemma {:induction false} AtomTokensPair(f: Term, a: Term, ctx: seq<string>, lx: Lexer, after: Lexer)
    requires WellNamed(Application(f, a), ctx) && Reads(lx, Tokens(Application(f, a)), after)
    ensures ParseAtom(lx, ctx) == Success(Some(Parsed(Application(f, a), after)))
    decreases Application(f, a), 0
  {
    var lx1, mid, lxr := PairSplit(f, a, lx, after);
    ReadsSingle(lx, Token(LPAREN, "("), lx1);
    ReadsSingle(lxr, Token(RPAREN, ")"), after);
    AtomTokens(f, ctx, lx1, mid);
    AtomTokens(a, ctx, mid, lxr);
    AtomPair(lx, lx1, ctx, Parsed(f, mid), Parsed(a, lxr), after);
  }

  /** The parser reads the tokens of a well-named term as a whole term
      when the token after them cannot continue an application. */
  lemma {:induction false} TermTokens(t: Term, ctx: seq<string>, lx: Lexer, after: Lexer)
    requires WellNamed(t, ctx) && Reads(lx, Tokens(t), after)
    requires !Next(after, LPAREN) && !Next(after, LCID)
    ensures ParseTerm(lx, ctx) == Success(Parsed(t, after))
    decreases t, 2
  {
    AtomTokens(t, ctx, lx, after);
    TermApplication(lx, ctx, Parsed(t, after));
  }

  /** Parsing inverts showing: every well-named closed term is read back
      exactly, names and indices alike. */
  lemma ParseShow(t: Term)
    requires WellNamed(t, [])
    ensures Parse(Show(t)) == Success(t)
  {
    var src := Show(t);
    ShownIn(t, "", "");
    assert "" + src + "" == src;
    ScanAtEnd(src);
    WellNamedNamed(t, []);
    ShowReads(t, src, 0, |src|);
    TraceAt(src, |src|, 0);
    TraceAt(src, |src|, |src|);
    TermTokens(t, [], At(src, 0).value, At(src, |src|).value);
  }

  /** Everything the parser produces can be shown and parsed back to
      itself. */
  lemma ParseThenShow(source: string)
    requires Parse(source).Success?
    ensures Parse(Show(Parse(source).value)) == Parse(source)
  {
    ParseShow(Parse(source).value);
  }
}

=== FILE: wrappers.dfy ===
/** Failure-compatible result types shared by the lexer, the parser and the
    normaliser. */
module Wrappers {

  /** An optional value. */
  datatype Option<+T> = None | Some(value: T) {

    predicate IsFailure() {
      None?
    }

    function PropagateFailure<U>(): Option<U>
      requires None?
    {
      None
    }

    function Extract(): T
      requires Some?
    {
      value
    }
  }

  /** Either a value or the error that stopped the computation. */
  datatype Result<+R, +E> = Success(value: R) | Failure(error: E) {

    predicate IsFailure() {
      Failure?
    }

    function PropagateFailure<U>(): Result<U, E>
      requires Failure?
    {
      Failure(error)
    }

    function Extract(): R
      requires Success?
    {
      value
    }
  }
}
